=== FILE: README.md ===
# Ledger rules of sistema-financiero-backend

A Dafny model of the money-movement rules of the financial back office of a
chain of banking-agent branches. Each branch has bank and platform accounts
and physical cash boxes. Cashiers run client operations that move money
between an operated bank account and a cash box: deposits, service payments
and withdrawals. Staff rebalance money between accounts, inject capital,
register expenses, lend cash out and take debt payments back, annul
transactions, close accounting periods and count their boxes at the end of
a shift.

Every controller action becomes a pure function from a whole store, a
`Ledger`, to `Result<Ledger>`. A failure carries an `Error` and leaves the
caller's store untouched, which is the all-or-nothing behaviour of the
database transaction each action runs in. Money is integer cents, standing
for the `decimal(12,2)` columns. Records live in sequences whose positions
are their ids, so "the first matching row" means the lowest id.

Modules:

- `LedgerTypes` (`ledger_types.dfy`) holds the entities, the eleven
  transaction types and two statuses with their stored strings, the row
  defaults, and the balance-delta predicates with their effect on the
  ledger total.
- `AccountNames` (`account_names.dfy`) holds the lower-casing substring
  test that keeps vaults and reserve boxes out of automatic till
  selection.
- `Operations` (`operations.dfy`) holds the client operations, including
  the three-level cash-box resolution, plus rebalancing, capital injection
  and expenses.
- `Annulment` (`annulment.dfy`) holds the type-specific reversal and the
  apply-then-annul round trip.
- `Debts` (`debts.dfy`) holds loans and payments: the PENDING to PAID
  machine with its overpayment guard, and conservation of cash plus
  receivables.
- `Closures` (`closures.dfy`) holds the period preview, the closure, the
  capitalisation transfer and the carried-over remainder.
- `CashCounts` (`cash_count.dfy`) holds the end-of-shift count against the
  book balance.

Every transaction row must name an existing branch: the entity declares the branch column NOT NULL. Client operations, rebalance, capital injection and expenses set the branch from an optional lookup. When their request names no branch, or an unknown one, they fail when the transaction is inserted (`MissingBranch`), and their balance writes roll back with it. Loans and payments look the branch up first and refuse an unknown one with `InvalidData` before anything is written. A cash count inserts no transaction.

The clock and the ids a database would generate are parameters. `now` is
the timestamp a new row receives. The acting user, branch and accounts are
ids in the request datatypes.

## Model

| member | source | states |
|---|---|---|
| LedgerTypes.ParseType | sistema-financiero-backend/src/entity/Transaction.ts:6-27 | any string accepted as a transaction type is the stored code of exactly that type |
| LedgerTypes.TypeCodeRoundTrip | sistema-financiero-backend/src/entity/Transaction.ts:6-27 | each of the eleven types reads back from its stored string as itself, so the type set is closed |
| LedgerTypes.TypeCodeInjective | sistema-financiero-backend/src/entity/Transaction.ts:6-27 | no two types share a stored string |
| LedgerTypes.StatusCodeRoundTrip | sistema-financiero-backend/src/entity/Transaction.ts:29-32 | the two statuses VALIDO and ANULADO read back as themselves |
| LedgerTypes.ParseStatus | sistema-financiero-backend/src/entity/Transaction.ts:29-32 | a status string is accepted only when it is the code of that status |
| LedgerTypes.NewTransaction | sistema-financiero-backend/src/entity/Transaction.ts:45-60 | a row built without commission or status gets commission 0 and status VALID, keeping its type, amount and accounts |
| LedgerTypes.TotalUpdate | sistema-financiero-backend/src/entity/Account.ts:30-31 | replacing one account changes the sum of all balances by exactly the change of that balance |
| LedgerTypes.TotalTwoDelta | sistema-financiero-backend/src/entity/Account.ts:30-31 | moving two distinct balances by dx and dy moves the ledger total by dx + dy |
| LedgerTypes.TwoDeltaCancels | sistema-financiero-backend/src/controllers/TransactionController.ts:369-378 | two opposite moves of the same two balances restore the accounts exactly |
| AccountNames.IncludesIffOccurs | sistema-financiero-backend/src/controllers/TransactionController.ts:90-93 | the substring search answers true exactly when the word occurs at some position of the name |
| AccountNames.VaultIsNotOperational | sistema-financiero-backend/src/controllers/TransactionController.ts:89-93 | a box named "Bóveda Central" is never picked as an operational till |
| AccountNames.ReserveIsNotOperational | sistema-financiero-backend/src/controllers/TransactionController.ts:89-93 | a box named "CAJA RESERVA" is never picked either, since the test lower-cases the name first |
| Operations.FirstFrom | sistema-financiero-backend/src/controllers/TransactionController.ts:90-94 | returns the lowest position satisfying the filter, or none when no position does |
| Operations.ResolveCashAccount | sistema-financiero-backend/src/controllers/TransactionController.ts:66-112 | the cascade: an explicit physical box; else the user's first active box that is not a vault or reserve, else the user's first active box; else the branch's first active box; none exactly when all three levels come up empty |
| Operations.ValidateOperation | sistema-financiero-backend/src/controllers/TransactionController.ts:17-36 | rejects a missing user, account or type, then a missing, non-numeric or non-positive amount, then a non-numeric or negative commission; on success an absent commission counts as 0 |
| Operations.LocateAccounts | sistema-financiero-backend/src/controllers/TransactionController.ts:42-116 | fails when the user is unknown or inactive, or when the operated account is missing, is not BANK or PLATFORM, or is inactive, or when no cash box resolves; when all of these pass it succeeds, returning the resolved box, which differs from the operated account |
| Operations.Settle | sistema-financiero-backend/src/controllers/TransactionController.ts:119-167 | deposit or service payment fails when the bank balance is below A, else bank moves by -A and cash by A+C; withdrawal fails when cash is below A, else bank moves by +A and cash by C-A; any other type is refused; a funded operation whose request names no existing branch fails at the insert of its transaction, every other funded one succeeds and logs one transaction |
| Operations.CreateOperation | sistema-financiero-backend/src/controllers/TransactionController.ts:13-184 | input errors come first and touch nothing; a request with valid input, an active user, an operable active account, a resolved box, a client type, sufficient funds and an existing branch succeeds; a success moved exactly the two balances by the formulas above and logged the operation |
| Operations.CashBoxNeverTheOperatedAccount | sistema-financiero-backend/src/controllers/TransactionController.ts:114-116 | the resolved box is never the operated bank or platform account |
| Operations.OperationAddsCommission | sistema-financiero-backend/src/controllers/TransactionController.ts:126-145 | a client operation grows the ledger total by exactly the commission |
| Operations.OperationKeepsBalancesNonNegative | sistema-financiero-backend/src/controllers/TransactionController.ts:127-136 | the funds checks keep every balance non-negative |
| Operations.Rebalance | sistema-financiero-backend/src/controllers/TransactionController.ts:189-234 | a missing or zero amount, a negative amount, identical accounts, unknown ids and an insufficient source each fail, and so does a transfer naming no existing branch (its transaction row needs one); every other transfer succeeds, moves exactly the amount from source to destination and logs an internal transfer |
| Operations.RebalanceConserves | sistema-financiero-backend/src/controllers/TransactionController.ts:207-214 | rebalancing preserves the sum of the two balances and the ledger total |
| Operations.InjectCapital | sistema-financiero-backend/src/controllers/TransactionController.ts:239-273 | a missing or non-positive amount fails; an unknown account or user fails; a request naming no existing branch fails at the insert; otherwise it succeeds, adding the amount to the destination with no funds check, and logs a capital injection |
| Operations.InjectionGrowsTotal | sistema-financiero-backend/src/controllers/TransactionController.ts:252 | an injection grows the ledger total by exactly the amount |
| Operations.ExpenseKind | sistema-financiero-backend/src/controllers/TransactionController.ts:294 | an absent type records EXPENSE; a named type is recorded under the type whose stored code it is, and a string that is no type's code records nothing |
| Operations.RegisterExpenseAsWritten | sistema-financiero-backend/src/controllers/TransactionController.ts:278-311 | the expense as coded: unknown ids or an insufficient balance fail; a funded expense of a known type with an existing branch succeeds and moves the source by -amount, with no sign check on the amount |
| Operations.NegativeExpenseCredits | sistema-financiero-backend/src/controllers/TransactionController.ts:287-290 | an expense of a negative amount is accepted and raises the balance |
| Operations.RegisterExpense | sistema-financiero-backend/src/controllers/TransactionController.ts:278-311 | with the positive-amount check added: a missing, non-numeric or non-positive amount fails; a funded expense of a known type with an existing branch succeeds; an expense only ever lowers the source, by exactly the amount, and never below zero |
| Operations.ExpenseShrinksTotal | sistema-financiero-backend/src/controllers/TransactionController.ts:290 | an expense lowers the ledger total by exactly its amount |
| Annulment.Annul | sistema-financiero-backend/src/controllers/TransactionController.ts:349-392 | an unknown id or an already ANNULLED transaction fails; any other VALID transaction with an account is annulled with no funds check; a deposit is reversed by bank +A and cash -(A+C), a withdrawal by bank -A and cash +A-C, and other types keep every balance |
| Annulment.AnnulmentMayOverdraw | sistema-financiero-backend/src/controllers/TransactionController.ts:369-371 | with no funds check, reversing a deposit whose cash box now holds less than amount plus commission succeeds and leaves that box negative |
| Annulment.AnnulIsTerminal | sistema-financiero-backend/src/controllers/TransactionController.ts:360 | a second annulment of the same transaction fails |
| Annulment.AnnulUndoesOperation | sistema-financiero-backend/src/controllers/TransactionController.ts:126-145 | a deposit or withdrawal followed by its annulment restores every balance and leaves the earlier log untouched |
| Annulment.ServicePaymentAnnulmentKeepsBalances | sistema-financiero-backend/src/controllers/TransactionController.ts:369-375 | annulling a service payment marks it but leaves the balances as the payment left them |
| Debts.CreateLoan | sistema-financiero-backend/src/controllers/DebtController.ts:12-65 | a missing or non-positive amount, unknown ids and an insufficient cash box each fail; a funded loan without a debtor name or description is refused at the debt insert, since both debt columns are NOT NULL (entity/Debt.ts lines 17-21); every other loan succeeds, lowers cash by exactly the amount and opens a PENDING debt with original and current balance equal to the amount |
| Debts.ApplyPayment | sistema-financiero-backend/src/controllers/DebtController.ts:93-99 | an accepted payment lowers the outstanding balance by exactly the amount, marks the debt PAID exactly when it clears the balance, and keeps a consistent debt consistent |
| Debts.PayDebt | sistema-financiero-backend/src/controllers/DebtController.ts:68-111 | a non-positive amount, an unknown or already PAID debt, an overpayment and unknown ids each fail; every other payment succeeds, raises cash by the amount, lowers the debt by the same amount, and marks it PAID exactly when the payment clears it |
| Debts.OutstandingUpdate | sistema-financiero-backend/src/controllers/DebtController.ts:93 | replacing one debt changes the total owed by exactly the change of its balance |
| Debts.LoanConservesAssets | sistema-financiero-backend/src/controllers/DebtController.ts:26-41 | a loan keeps cash on hand plus receivables constant |
| Debts.PaymentConservesAssets | sistema-financiero-backend/src/controllers/DebtController.ts:89-99 | a payment keeps cash on hand plus receivables constant |
| Debts.DebtOperationsKeepDebtsConsistent | sistema-financiero-backend/src/controllers/DebtController.ts:75-99 | loans and payments keep every debt between 0 and its original amount, PAID exactly when nothing is owed |
| Debts.PaidIsTerminal | sistema-financiero-backend/src/controllers/DebtController.ts:78 | paying off the residual closes the debt, and any later payment is refused |
| Debts.SixtyThenFortySettlesAHundred | sistema-financiero-backend/src/controllers/DebtController.ts:79-99 | a debt of 100.00 paid with 60.00 stays PENDING, a further 40.00 makes it PAID at zero, and a third payment is refused |
| Closures.PeriodStart | sistema-financiero-backend/src/controllers/ClosureController.ts:18-26 | the period starts at the latest closing date, or at the epoch when there is no closure |
| Closures.ComputePreview | sistema-financiero-backend/src/controllers/ClosureController.ts:28-47 | the loop over the transactions after the period start totals DEPOSITO, VENTA and ABONO_DEUDA as income and GASTO, PAGO_NOMINA and COMPRA_INVENTARIO as expense, ignores every other type, counts the transactions, and sets net = income - expense |
| Closures.SumsAppend | sistema-financiero-backend/src/controllers/ClosureController.ts:36-45 | the income, expense and count totals add up over any split of the log |
| Closures.NothingAfterStart | sistema-financiero-backend/src/controllers/ClosureController.ts:29-31 | transactions dated at or before the period start contribute nothing |
| Closures.AnnulledStillCounted | sistema-financiero-backend/src/controllers/ClosureController.ts:36-45 | annulling a transaction does not change the income or expense totals |
| Closures.ClosureRecord | sistema-financiero-backend/src/controllers/ClosureController.ts:125-133 | the saved closure starts at the period start, closes now, records the preview's income and expense, net = income - expense, the capitalised amount, and carried-over + capitalised = net |
| Closures.CapitalizationWrites | sistema-financiero-backend/src/controllers/ClosureController.ts:100-112 | for two distinct accounts the writes move exactly the amount from source to destination and touch nothing else; for one account the destination write wins and that balance rises by the amount |
| Closures.PerformClosureAsWritten | sistema-financiero-backend/src/controllers/ClosureController.ts:64-149 | the closure as coded: the capitalisation guards fail as written; a closure without capitalisation adds only the closure record, leaving balances, the log, users, branches, debts and counts unchanged; a capitalisation that passes every guard is refused as a whole, because its transaction row cannot be stored |
| Closures.CapitalizingIntoItselfCreatesMoney | sistema-financiero-backend/src/controllers/ClosureController.ts:100-112 | in the balance writes, capitalising from an account into itself raises that balance, and the ledger total, by the amount |
| Closures.PerformClosure | sistema-financiero-backend/src/controllers/ClosureController.ts:64-149 | a positive amount above the net result fails; so does capitalising without both accounts, into the same account, from or into an unknown account, or beyond the source balance; every other capitalisation succeeds and moves exactly the amount from source to destination; with no capitalisation every balance is kept; the closure records the preview's totals |
| Closures.ClosureConservesTotal | sistema-financiero-backend/src/controllers/ClosureController.ts:106-112 | capitalisation preserves the ledger total |
| Closures.ClosureStartsNextPeriod | sistema-financiero-backend/src/controllers/ClosureController.ts:70-78 | after a closure at `now` that follows every recorded date, the next preview starts at `now` and is empty |
| CashCounts.Classify | sistema-financiero-backend/src/controllers/CashCountController.ts:48-50 | a negative difference is a shortage, a positive one a surplus, and zero a perfect match |
| CashCounts.PerformClosing | sistema-financiero-backend/src/controllers/CashCountController.ts:10-65 | a missing report fails; unknown ids fail; otherwise the count records the book balance as expected, the report as reported, and difference = reported - expected, appends the record, and changes no balance |
| CashCounts.RecountSeesSameBalance | sistema-financiero-backend/src/controllers/CashCountController.ts:28-45 | a count moves no money: recounting the same box compares against the same balance and, for the same report, gives the same verdict |

## Left out

- Request parsing, HTTP responses and messages are left out. Error messages become constructors of `Error`.
- The optional text fields are left out: the transaction description, notes, comments, categories, fund sources, metadata JSON and the annulment reason. They are nullable and carry no money. The debt's debtor name and description are NOT NULL and are modelled as fields that may be absent. Apart from the debtor's name, which the debt keeps, the text is not stored in the model.
- Row locks and concurrent requests are left out. Each action is one atomic step on the whole store.
- Authentication and authorisation (login, roles, token checks) are left out. They are not part of these controllers.
- Transaction and debt history, pending-debt listing and cash-count history are left out. They are read-only paginated queries.
- Floating point is left out. Amounts are exact cents, so the debt tolerance of 0.009 becomes "residual at most zero".
- The `decimal(12,2)` column range is left out. Balances are unbounded integers, so overflow of the column is not modelled.
- Client operations and expenses take an amount that may be absent or non-numeric. Rebalance, injection, loans, payments, closures and counts take `Option<Cents>`, and a non-numeric string is not modelled. For rebalance, injection, loans and payments, absent stands for a missing or falsy field, zero included, as their `!amount` tests read. For counts, absent means undefined or null only: the count tests for those two alone, so a report of 0 is a valid count. For closures, a missing capitalisation amount means nothing is capitalised.
- Operations.RegisterExpenseAsWritten: a missing or non-numeric amount is reported as `InvalidAmount`. The code never checks the amount: `Number` gives NaN, the funds check passes, and NaN is written into the balance. Integer cents cannot hold NaN.
- The ids of the account, user, branch and debt in the bodies of injection, expense, loan, payment and count are never checked for presence in the code. The model takes them as present. A missing one would reach the lookup as an undefined condition.
- The store's ids are UUID strings and its lookups at TransactionController.ts lines 79-86 and 100-107 have no ORDER BY. Taking the lowest position as "the first" row is a choice of the model, not an order the code promises. Ids are taken as present whenever the body carries them.
- The controllers filter and stamp transactions by a `date` field, while the entity declares a `createdAt` creation column. The model gives every transaction one timestamp, the `now` of the action that created it.
- The controllers read an account's owner, branch and `status`, while the entity declares an `isActive` flag and no owner relation. Users, too, are read through `status`, while their entity declares `isActive`. The model follows the controllers: `owner`, `branch` and `active`.
- Client operations, rebalance, capital injection and expenses all write status COMPLETED (TransactionController.ts lines 159, 224, 262 and 300). COMPLETED is not a member of the status enumeration. The model logs all four as VALID through `NewTransaction`.
- Closures.PerformClosure: the corrected closure logs no capitalisation transaction. The code's type UTILITY_WITHDRAWAL is not a member of the type enumeration, so no intended type can be told from the code. The period buckets would ignore such a transaction anyway.
- The cash-box name test lower-cases ASCII and the accented Spanish capitals only. Full Unicode case mapping is left out.
- Closure previews do not skip ANNULLED transactions, as in the code. `Closures.AnnulledStillCounted` states it.
- Annulment has no role check and no funds check on the reversal, as in the code, so a reversal may leave a balance negative.
- A transaction without an account cannot be annulled (`MissingTransactionAccount`). The code dereferences the missing relation and the action fails.
- Operations.Settle: the same-account guard is in `Operations.LocateAccounts`. `Operations.CashBoxNeverTheOperatedAccount` shows that it can never fire.
- Operations.RegisterExpense: the type string is not validated beyond naming one of the eleven types. An unknown string fails with `InvalidOperationType`, standing for the database rejecting the enum value.

## Findings

| source | as written | input that shows it | evidently intended | confidence | as-written member | corrected member |
|---|---|---|---|---|---|---|
| sistema-financiero-backend/src/controllers/TransactionController.ts:287-290 | registerExpense never checks the sign of the amount, and subtracts it after a funds check a negative amount always passes | an expense of -50.00 on a box holding 0.00 is accepted and leaves the box at 50.00 | reject a non-positive amount, as the other money-moving actions do | not executed | Operations.NegativeExpenseCredits | Operations.RegisterExpense |
| sistema-financiero-backend/src/controllers/ClosureController.ts:114-122 | every closure that capitalises inserts a transaction whose type is not a member of the enumeration and which sets no branch; both columns are NOT NULL, so the insert fails and the whole closure rolls back | a closure with net result 100.00 capitalising 50.00 from box 1 (balance 80.00) into box 2 passes every guard and is refused, and no closure is saved | the capitalisation moves the amount and the closure is saved | not executed | Closures.PerformClosureAsWritten | Closures.PerformClosure |
| sistema-financiero-backend/src/controllers/ClosureController.ts:100-112 | the balance writes load source and destination as two separate rows, subtract on one, add on the other and save the destination last; this is hidden while the finding above makes every capitalisation roll back | the writes for capitalising 50.00 from box 1 (balance 80.00) into box 1 leave box 1 at 130.00 | refuse capitalising into the source account, as rebalance refuses identical accounts | not executed | Closures.CapitalizingIntoItselfCreatesMoney | Closures.PerformClosure |

=== FILE: account_names.dfy ===
/** The name test that keeps a vault or reserve box from being chosen as a
    cashier's operating till. */
module AccountNames {

  /** Lower-cases one character: the ASCII capitals and the accented
      capitals of Spanish; every other character is left as it is. */
  function LowerChar(c: char): (l: char)
    ensures 'A' <= c <= 'Z' ==> l as int == c as int + 32
    ensures !('A' <= c <= 'Z') && c !in "ÁÉÍÓÚÑÜ" ==> l == c
  {
    if 'A' <= c <= 'Z' then (c as int + 32) as char
    else if c == 'Á' then 'á'
    else if c == 'É' then 'é'
    else if c == 'Í' then 'í'
    else if c == 'Ó' then 'ó'
    else if c == 'Ú' then 'ú'
    else if c == 'Ñ' then 'ñ'
    else if c == 'Ü' then 'ü'
    else c
  }

  function ToLower(s: string): (r: string)
    ensures |r| == |s|
    ensures forall i :: 0 <= i < |s| ==> r[i] == LowerChar(s[i])
  {
    seq(|s|, i requires 0 <= i < |s| => LowerChar(s[i]))
  }

  /** `w` occurs in `s` starting at position `i`. */
  predicate OccursAt(s: string, w: string, i: int)
  {
    0 <= i && i + |w| <= |s| && forall k :: 0 <= k < |w| ==> s[i + k] == w[k]
  }

  /** Substring search, scanning `s` from the left, as `includes` does. */
  function Includes(s: string, w: string): bool
    decreases |s|
  {
    if |s| < |w| then false
    else if OccursAt(s, w, 0) then true
    else Includes(s[1..], w)
  }

  /** The search is exact: it answers true exactly when `w` occurs
      somewhere in `s`. */
  lemma {:induction false} IncludesIffOccurs(s: string, w: string)
    ensures Includes(s, w) <==> exists i :: OccursAt(s, w, i)
    decreases |s|
  {
    if |s| < |w| {
      assert forall i :: !OccursAt(s, w, i);
    } else if OccursAt(s, w, 0) {
    } else {
      IncludesIffOccurs(s[1..], w);
      assert forall i :: 1 <= i ==> (OccursAt(s, w, i) <==> OccursAt(s[1..], w, i - 1)) by {
        forall i | 1 <= i
          ensures OccursAt(s, w, i) <==> OccursAt(s[1..], w, i - 1)
        {
        }
      }
      if Includes(s[1..], w) {
        var j :| OccursAt(s[1..], w, j);
        assert OccursAt(s, w, j + 1);
      }
    }
  }

  /** A box whose lower-cased name mentions neither "bóveda" (vault) nor
      "reserva" (reserve) is an operating till. */
  predicate IsOperationalName(name: string)
  {
    !Includes(ToLower(name), "bóveda") && !Includes(ToLower(name), "reserva")
  }

  /** The vault box of the initial data is never taken as an operating till. */
  lemma VaultIsNotOperational()
    ensures !IsOperationalName("Bóveda Central")
  {
    var lower := ToLower("Bóveda Central");
    assert OccursAt(lower, "bóveda", 0);
    IncludesIffOccurs(lower, "bóveda");
  }

  /** Neither is a reserve box, whatever the case of its name. */
  lemma ReserveIsNotOperational()
    ensures !IsOperationalName("CAJA RESERVA")
  {
    var lower := ToLower("CAJA RESERVA");
    assert OccursAt(lower, "reserva", 5);
    IncludesIffOccurs(lower, "reserva");
  }
}

=== FILE: annulment.dfy ===
/** Annulment: voiding a recorded transaction and, for deposits and
    withdrawals, reversing its effect on the two balances.

  Only DEPOSIT and WITHDRAWAL have an inverse; every other type is just
  marked ANNULLED. There is no role check and no funds check, so a reversal
  may leave a balance negative. Annulled is a terminal status.
 */
module Annulment {
  import opened LedgerTypes
  import opened Operations

  /** The balances after reversing `t`. The operated account and the second
      account are read from the same snapshot and written in that order, so
      when they coincide the second write is the one that stays. */
  function Reverse(accounts: seq<Account>, t: Transaction, main: AccountId, dest: Option<AccountId>): seq<Account>
    requires (t.kind == Deposit || t.kind == Withdrawal) ==> main < |accounts|
    requires dest.Some? ==> dest.value < |accounts|
  {
    if t.kind == Deposit then
      var withMain := accounts[main := accounts[main].(balance := accounts[main].balance + t.amount)];
      if dest.Some? then
        withMain[dest.value := accounts[dest.value].(balance := accounts[dest.value].balance - (t.amount + t.commission))]
      else withMain
    else if t.kind == Withdrawal then
      var withMain := accounts[main := accounts[main].(balance := accounts[main].balance - t.amount)];
      if dest.Some? then
        withMain[dest.value := accounts[dest.value].(balance := accounts[dest.value].balance + t.amount - t.commission)]
      else withMain
    else accounts
  }

  /** `s'` is `s` with transaction `id` marked annulled; accounts aside,
      nothing else changes. */
  ghost predicate MarkedAnnulled(s: Ledger, s': Ledger, id: TransactionId)
  {
    && id < |s.transactions|
    && s'.transactions == s.transactions[id := s.transactions[id].(status := Annulled)]
    && s'.users == s.users
    && s'.branches == s.branches
    && s'.debts == s.debts
    && s'.closures == s.closures
    && s'.cashCounts == s.cashCounts
  }

  /** The second account of a transaction, if it still exists. */
  function DestinationOf(s: Ledger, t: Transaction): (d: Option<AccountId>)
    ensures d.Some? ==> d == t.destination && d.value < |s.accounts|
    ensures t.destination.Some? && t.destination.value < |s.accounts| ==> d == t.destination
  {
    if t.destination.Some? && t.destination.value < |s.accounts| then t.destination else None
  }

  /** Annuls transaction `id`. */
  function Annul(s: Ledger, id: TransactionId): (r: Result<Ledger>)
    ensures id >= |s.transactions| ==> r == Failure(TransactionNotFound)
    ensures id < |s.transactions| && s.transactions[id].status == Annulled ==> r == Failure(AlreadyAnnulled)
    ensures (id < |s.transactions| && s.transactions[id].status == Valid && s.transactions[id].account.Some?
             && ((s.transactions[id].kind == Deposit || s.transactions[id].kind == Withdrawal) ==>
                   s.transactions[id].account.value < |s.accounts|)) ==>
      r.Success?
    ensures r.Success? ==>
      && id < |s.transactions| && s.transactions[id].status == Valid
      && s.transactions[id].account.Some?
      && MarkedAnnulled(s, r.value, id)
    ensures r.Success? && s.transactions[id].kind != Deposit && s.transactions[id].kind != Withdrawal ==>
      r.value.accounts == s.accounts
    ensures r.Success? ==>
      var t := s.transactions[id];
      (t.kind == Deposit && t.destination.Some? && t.destination.value < |s.accounts| && t.destination != t.account) ==>
        TwoAccountDelta(s.accounts, r.value.accounts, t.account.value, t.amount, t.destination.value, -(t.amount + t.commission))
    ensures r.Success? ==>
      var t := s.transactions[id];
      (t.kind == Withdrawal && t.destination.Some? && t.destination.value < |s.accounts| && t.destination != t.account) ==>
        TwoAccountDelta(s.accounts, r.value.accounts, t.account.value, -t.amount, t.destination.value, t.amount - t.commission)
    ensures r.Success? ==>
      var t := s.transactions[id];
      (t.kind == Deposit && DestinationOf(s, t).None?) ==> OneAccountDelta(s.accounts, r.value.accounts, t.account.value, t.amount)
    ensures r.Success? ==>
      var t := s.transactions[id];
      (t.kind == Withdrawal && DestinationOf(s, t).None?) ==> OneAccountDelta(s.accounts, r.value.accounts, t.account.value, -t.amount)
  {
    if id >= |s.transactions| then Failure(TransactionNotFound)
    else
      var t := s.transactions[id];
      if t.status == Annulled then Failure(AlreadyAnnulled)
      else if t.account.None? then Failure(MissingTransactionAccount)
      else if (t.kind == Deposit || t.kind == Withdrawal) && t.account.value >= |s.accounts| then Failure(MissingTransactionAccount)
      else
        assert t.status == Valid;
        Success(s.(accounts := Reverse(s.accounts, t, t.account.value, DestinationOf(s, t)),
                   transactions := s.transactions[id := t.(status := Annulled)]))
  }

  /** Annulled is terminal: a second annulment of the same transaction
      fails, so its balances are never reversed twice. */
  lemma AnnulIsTerminal(s: Ledger, id: TransactionId)
    requires Annul(s, id).Success?
    ensures Annul(Annul(s, id).value, id) == Failure(AlreadyAnnulled)
  {
  }

  /** Applying a deposit or withdrawal and then annulling the transaction it
      recorded restores every balance exactly, and leaves the earlier log
      untouched. */
  lemma {:induction false} AnnulUndoesOperation(s: Ledger, req: OperationRequest, now: Timestamp)
    requires CreateOperation(s, req, now).Success?
    requires ParseType(req.typeCode) == Some(Deposit) || ParseType(req.typeCode) == Some(Withdrawal)
    ensures var o := CreateOperation(s, req, now).value;
      && Annul(o.ledger, |s.transactions|).Success?
      && Annul(o.ledger, |s.transactions|).value.accounts == s.accounts
      && Annul(o.ledger, |s.transactions|).value.transactions[..|s.transactions|] == s.transactions
      && Annul(o.ledger, |s.transactions|).value.transactions[|s.transactions|].status == Annulled
  {
    var o := CreateOperation(s, req, now).value;
    var id := |s.transactions|;
    var t := o.ledger.transactions[id];
    var A := req.amount.cents;
    var C := if req.commission.Amount? then req.commission.cents else 0;
    assert t.kind == ParseType(req.typeCode).value && t.amount == A && t.commission == C;
    assert t.account == Some(o.bank) && t.destination == Some(o.cash) && t.status == Valid;
    var a := Annul(o.ledger, id);
    assert a.Success?;
    if t.kind == Deposit {
      TwoDeltaCancels(s.accounts, o.ledger.accounts, a.value.accounts, o.bank, -A, o.cash, A + C);
    } else {
      TwoDeltaCancels(s.accounts, o.ledger.accounts, a.value.accounts, o.bank, A, o.cash, C - A);
    }
    assert a.value.transactions[..id] == o.ledger.transactions[..id];
  }

  /** A service payment moves money like a deposit, but its annulment only
      marks it: the balances stay as the payment left them. */
  lemma ServicePaymentAnnulmentKeepsBalances(s: Ledger, req: OperationRequest, now: Timestamp)
    requires CreateOperation(s, req, now).Success?
    requires ParseType(req.typeCode) == Some(ServicePayment)
    ensures var o := CreateOperation(s, req, now).value;
      && Annul(o.ledger, |s.transactions|).Success?
      && Annul(o.ledger, |s.transactions|).value.accounts == o.ledger.accounts
  {
    var o := CreateOperation(s, req, now).value;
    assert o.ledger.transactions[|s.transactions|].kind == ServicePayment;
  }

  /** Annulment makes no funds check: reversing a deposit whose cash has
      already been spent leaves the cash box below zero. */
  lemma AnnulmentMayOverdraw(s: Ledger, id: TransactionId)
    requires id < |s.transactions|
    requires var t := s.transactions[id];
      && t.status == Valid && t.kind == Deposit
      && t.account.Some? && t.account.value < |s.accounts|
      && t.destination.Some? && t.destination.value < |s.accounts| && t.destination != t.account
      && s.accounts[t.destination.value].balance < t.amount + t.commission
    ensures Annul(s, id).Success?
    ensures Annul(s, id).value.accounts[s.transactions[id].destination.value].balance < 0
  {
  }
}

=== FILE: cash_count.dfy ===
/** End-of-shift cash count: the cashier reports what is physically in a
    box, the system records it against the book balance. A count is an audit
    record only; it never adjusts the balance. */
module CashCounts {
  import opened LedgerTypes

  /** The body of a cash-count request; the reported amount may be absent. */
  datatype CountRequest = CountRequest(
    userId: UserId,
    branchId: BranchId,
    account: AccountId,
    reported: Option<Cents>)

  /** How a count compares with the books. */
  datatype CountVerdict = Shortage | Surplus | Balanced

  /** Negative differences are shortages, positive ones surpluses. */
  function Classify(difference: Cents): (v: CountVerdict)
    ensures v == Shortage <==> difference < 0
    ensures v == Surplus <==> difference > 0
    ensures v == Balanced <==> difference == 0
  {
    if difference < 0 then Shortage
    else if difference > 0 then Surplus
    else Balanced
  }

  datatype CountReceipt = CountReceipt(ledger: Ledger, record: CashCount, verdict: CountVerdict)

  /** Records a cash count. Zero is a valid report; only a missing one is
      refused. */
  function PerformClosing(s: Ledger, req: CountRequest): (r: Result<CountReceipt>)
    ensures req.reported.None? ==> r == Failure(MissingReportedAmount)
    ensures req.reported.Some? && (req.account >= |s.accounts| || req.userId !in s.users || req.branchId !in s.branches) ==>
      r == Failure(InvalidData)
    ensures (req.reported.Some? && req.account < |s.accounts| && req.userId in s.users && req.branchId in s.branches) ==>
      r.Success?
    ensures r.Success? ==>
      && req.reported.Some? && req.account < |s.accounts|
      && r.value.record.account == req.account
      && r.value.record.user == req.userId
      && r.value.record.branch == req.branchId
      && r.value.record.expectedBalance == s.accounts[req.account].balance
      && r.value.record.reportedBalance == req.reported.value
      && r.value.record.expectedBalance + r.value.record.difference == r.value.record.reportedBalance
      && (r.value.verdict == Balanced <==> req.reported.value == s.accounts[req.account].balance)
      && (r.value.verdict == Shortage <==> req.reported.value < s.accounts[req.account].balance)
      && r.value.ledger.cashCounts == s.cashCounts + [r.value.record]
      && r.value.ledger.accounts == s.accounts
      && r.value.ledger.transactions == s.transactions
      && r.value.ledger.users == s.users && r.value.ledger.branches == s.branches
      && r.value.ledger.debts == s.debts && r.value.ledger.closures == s.closures
  {
    if req.reported.None? then Failure(MissingReportedAmount)
    else if req.account >= |s.accounts| || req.userId !in s.users || req.branchId !in s.branches then Failure(InvalidData)
    else
      var expected := s.accounts[req.account].balance;
      var counted := req.reported.value;
      var record := CashCount(req.account, req.userId, req.branchId, expected, counted, counted - expected);
      Success(CountReceipt(s.(cashCounts := s.cashCounts + [record]), record, Classify(record.difference)))
  }

  /** Counting never moves money: counting the same box twice in a row
      compares against the same book balance, and an exact report comes
      out balanced both times. */
  lemma RecountSeesSameBalance(s: Ledger, req: CountRequest, req2: CountRequest)
    requires PerformClosing(s, req).Success?
    requires req2.account == req.account && req2.reported.Some?
    requires req2.userId in s.users && req2.branchId in s.branches
    ensures var first := PerformClosing(s, req).value;
      && PerformClosing(first.ledger, req2).Success?
      && PerformClosing(first.ledger, req2).value.record.expectedBalance == first.record.expectedBalance
      && (req2.reported == req.reported ==> PerformClosing(first.ledger, req2).value.verdict == first.verdict)
  {
  }
}

=== FILE: closures.dfy ===
/** Period closure: the income/expense summary of everything recorded since
    the last closure, the optional capitalisation of part of the profit, and
    the closure record that becomes the boundary of the next period.

  The summary buckets transactions by type only: their status is not looked
  at, so an annulled deposit still counts as income.
 */
module Closures {
  import opened LedgerTypes

  /** Types that count as income. */
  predicate IsIncome(k: TransactionType)
  {
    k == Deposit || k == Sale || k == DebtPayment
  }

  /** Types that count as expense. */
  predicate IsOutgo(k: TransactionType)
  {
    k == Expense || k == Payroll || k == Purchase
  }

  /** The start of the open period: the latest closing date, or the epoch
      when nothing was ever closed. */
  function PeriodStart(closures: seq<PeriodClosure>): (r: Timestamp)
    ensures |closures| == 0 ==> r == 0
    ensures forall i :: 0 <= i < |closures| ==> closures[i].closingDate <= r
    ensures |closures| > 0 ==> exists i :: 0 <= i < |closures| && closures[i].closingDate == r
  {
    if |closures| == 0 then 0
    else
      var rest := PeriodStart(closures[..|closures| - 1]);
      var last := closures[|closures| - 1].closingDate;
      if last >= rest then last else rest
  }

  /** What one transaction adds to the income of the period after `start`. */
  function IncomeOf(t: Transaction, start: Timestamp): Cents
  {
    if t.date > start && IsIncome(t.kind) then t.amount else 0
  }

  /** What one transaction adds to the expense of the period after `start`. */
  function OutgoOf(t: Transaction, start: Timestamp): Cents
  {
    if t.date > start && IsOutgo(t.kind) then t.amount else 0
  }

  /** Total income recorded strictly after `start`. */
  function IncomeSince(txs: seq<Transaction>, start: Timestamp): Cents
  {
    if |txs| == 0 then 0 else IncomeSince(txs[..|txs| - 1], start) + IncomeOf(txs[|txs| - 1], start)
  }

  /** Total expense recorded strictly after `start`. */
  function OutgoSince(txs: seq<Transaction>, start: Timestamp): Cents
  {
    if |txs| == 0 then 0 else OutgoSince(txs[..|txs| - 1], start) + OutgoOf(txs[|txs| - 1], start)
  }

  /** Number of transactions recorded strictly after `start`. */
  function CountSince(txs: seq<Transaction>, start: Timestamp): nat
  {
    if |txs| == 0 then 0 else CountSince(txs[..|txs| - 1], start) + (if txs[|txs| - 1].date > start then 1 else 0)
  }

  datatype Preview = Preview(
    startDate: Timestamp,
    transactionsCount: nat,
    totalIncome: Cents,
    totalExpense: Cents,
    netResult: Cents)

  /** The summary of the open period. */
  function PreviewOf(s: Ledger): Preview
  {
    var start := PeriodStart(s.closures);
    var income := IncomeSince(s.transactions, start);
    var outgo := OutgoSince(s.transactions, start);
    Preview(start, CountSince(s.transactions, start), income, outgo, income - outgo)
  }

  /** The preview as the controller computes it: select the transactions
      after the period start, then add each one into its bucket. */
  method ComputePreview(s: Ledger) returns (p: Preview)
    ensures p == PreviewOf(s)
    ensures p.netResult == p.totalIncome - p.totalExpense
  {
    var start := PeriodStart(s.closures);
    var income, outgo, count := 0, 0, 0;
    var i := 0;
    while i < |s.transactions|
      invariant 0 <= i <= |s.transactions|
      invariant income == IncomeSince(s.transactions[..i], start)
      invariant outgo == OutgoSince(s.transactions[..i], start)
      invariant count == CountSince(s.transactions[..i], start)
    {
      var t := s.transactions[i];
      assert s.transactions[..i + 1][..i] == s.transactions[..i];
      if t.date > start {
        count := count + 1;
        if IsIncome(t.kind) {
          income := income + t.amount;
        } else if IsOutgo(t.kind) {
          outgo := outgo + t.amount;
        }
      }
      i := i + 1;
    }
    assert s.transactions[..i] == s.transactions;
    p := Preview(start, count, income, outgo, income - outgo);
  }

  /** The buckets add up over any split of the log. */
  lemma {:induction false} SumsAppend(a: seq<Transaction>, b: seq<Transaction>, start: Timestamp)
    ensures IncomeSince(a + b, start) == IncomeSince(a, start) + IncomeSince(b, start)
    ensures OutgoSince(a + b, start) == OutgoSince(a, start) + OutgoSince(b, start)
    ensures CountSince(a + b, start) == CountSince(a, start) + CountSince(b, start)
    decreases |b|
  {
    if |b| == 0 {
      assert a + b == a;
    } else {
      var n := |b| - 1;
      assert (a + b)[..|a + b| - 1] == a + b[..n];
      SumsAppend(a, b[..n], start);
    }
  }

  /** Nothing dated at or before the period start is counted. */
  lemma {:induction false} NothingAfterStart(txs: seq<Transaction>, start: Timestamp)
    requires forall i :: 0 <= i < |txs| ==> txs[i].date <= start
    ensures IncomeSince(txs, start) == 0 && OutgoSince(txs, start) == 0 && CountSince(txs, start) == 0
  {
    if |txs| > 0 {
      NothingAfterStart(txs[..|txs| - 1], start);
    }
  }

  /** Annulling a transaction does not change the summary: the buckets do
      not look at the status. */
  lemma {:induction false} AnnulledStillCounted(txs: seq<Transaction>, id: nat, start: Timestamp)
    requires id < |txs|
    ensures IncomeSince(txs[id := txs[id].(status := Annulled)], start) == IncomeSince(txs, start)
    ensures OutgoSince(txs[id := txs[id].(status := Annulled)], start) == OutgoSince(txs, start)
  {
    var n := |txs| - 1;
    var txs' := txs[id := txs[id].(status := Annulled)];
    if id == n {
      assert txs'[..n] == txs[..n];
    } else {
      assert txs'[..n] == txs[..n][id := txs[id].(status := Annulled)];
      AnnulledStillCounted(txs[..n], id, start);
    }
  }

  // ---------------------------------------------------------------------
  // Closing the period
  // ---------------------------------------------------------------------

  /** The body of a closure request. */
  datatype ClosureRequest = ClosureRequest(
    userId: UserId,
    capitalizeAmount: Option<Cents>,
    source: Option<AccountId>,
    destination: Option<AccountId>)

  /** The amount to capitalise; an absent amount means none. */
  function CapitalOf(req: ClosureRequest): Cents
  {
    if req.capitalizeAmount.Some? then req.capitalizeAmount.value else 0
  }

  /** The closure record for the open period: the preview's totals, the
      capitalised amount, and what is left of the net result. */
  function ClosureRecord(s: Ledger, cap: Cents, now: Timestamp): (c: PeriodClosure)
    ensures c.totalIncome == PreviewOf(s).totalIncome && c.totalExpense == PreviewOf(s).totalExpense
    ensures c.netResult == c.totalIncome - c.totalExpense
    ensures c.capitalizedAmount == cap
    ensures c.carriedOverAmount + c.capitalizedAmount == c.netResult
    ensures c.startDate == PeriodStart(s.closures) && c.closingDate == now
  {
    var p := PreviewOf(s);
    PeriodClosure(now, p.startDate, p.totalIncome, p.totalExpense, p.netResult, cap, p.netResult - cap)
  }

  /** The balance writes of a capitalisation: source and destination are
      read as two separate rows from the same snapshot and saved in turn, so
      when they are the same account the second save is the one that stays. */
  function CapitalizationWrites(accounts: seq<Account>, src: AccountId, dst: AccountId, cap: Cents): (after: seq<Account>)
    requires src < |accounts| && dst < |accounts|
    ensures src != dst ==> TwoAccountDelta(accounts, after, src, -cap, dst, cap)
    ensures src == dst ==> OneAccountDelta(accounts, after, src, cap)
  {
    accounts[src := accounts[src].(balance := accounts[src].balance - cap)]
            [dst := accounts[dst].(balance := accounts[dst].balance + cap)]
  }

  /** The latent discrepancy in those writes: capitalising from an account
      into itself adds the amount to the ledger instead of moving it. */
  lemma CapitalizingIntoItselfCreatesMoney(accounts: seq<Account>, x: AccountId, cap: Cents)
    requires x < |accounts|
    ensures CapitalizationWrites(accounts, x, x, cap)[x].balance == accounts[x].balance + cap
    ensures Total(CapitalizationWrites(accounts, x, x, cap)) == Total(accounts) + cap
  {
    TotalOneDelta(accounts, CapitalizationWrites(accounts, x, x, cap), x, cap);
  }

  /** A positive capitalisation within the net result that names both
      accounts. */
  predicate CapitalizationNamed(s: Ledger, req: ClosureRequest)
  {
    0 < CapitalOf(req) <= PreviewOf(s).netResult && req.source.Some? && req.destination.Some?
  }

  /** Both accounts of a named capitalisation exist. */
  predicate CapitalizationAccountsKnown(s: Ledger, req: ClosureRequest)
    requires CapitalizationNamed(s, req)
  {
    req.source.value < |s.accounts| && req.destination.value < |s.accounts|
  }

  /** A named capitalisation between known accounts whose source covers it. */
  predicate CapitalizationFunded(s: Ledger, req: ClosureRequest)
  {
    && CapitalizationNamed(s, req) && CapitalizationAccountsKnown(s, req)
    && s.accounts[req.source.value].balance >= CapitalOf(req)
  }

  /** Closing exactly as the controller does it. A closure without
      capitalisation is saved. A capitalising closure passes the same
      guards, but the transaction it then inserts has a type the
      enumeration does not define and no branch, both NOT NULL columns, so
      the store refuses it and the whole unit of work, balance writes and
      closure included, rolls back. */
  function PerformClosureAsWritten(s: Ledger, req: ClosureRequest, now: Timestamp): (r: Result<Ledger>)
    ensures CapitalOf(req) > 0 && CapitalOf(req) > PreviewOf(s).netResult ==> r == Failure(CapitalizationExceedsProfit)
    ensures (0 < CapitalOf(req) <= PreviewOf(s).netResult && (req.source.None? || req.destination.None?)) ==>
      r == Failure(CapitalizationAccountsRequired)
    ensures CapitalizationNamed(s, req) && !CapitalizationAccountsKnown(s, req) ==> r == Failure(InvalidAccounts)
    ensures (CapitalizationNamed(s, req) && CapitalizationAccountsKnown(s, req)
             && s.accounts[req.source.value].balance < CapitalOf(req)) ==>
      r == Failure(InsufficientFunds)
    ensures CapitalizationFunded(s, req) ==> r == Failure(RecordRejected)
    ensures r.Success? <==> CapitalOf(req) <= 0
    ensures r.Success? ==>
      && r.value.accounts == s.accounts
      && r.value.closures == s.closures + [ClosureRecord(s, CapitalOf(req), now)]
      && r.value.transactions == s.transactions
      && r.value.users == s.users && r.value.branches == s.branches
      && r.value.debts == s.debts && r.value.cashCounts == s.cashCounts
  {
    var net := PreviewOf(s).netResult;
    var cap := CapitalOf(req);
    if cap > 0 && cap > net then Failure(CapitalizationExceedsProfit)
    else if cap > 0 && (req.source.None? || req.destination.None?) then Failure(CapitalizationAccountsRequired)
    else if cap > 0 && (req.source.value >= |s.accounts| || req.destination.value >= |s.accounts|) then Failure(InvalidAccounts)
    else if cap > 0 && s.accounts[req.source.value].balance < cap then Failure(InsufficientFunds)
    else if cap > 0 then Failure(RecordRejected)
    else Success(s.(closures := s.closures + [ClosureRecord(s, cap, now)]))
  }

  /** Closing the period as intended: a capitalisation is saved, and it is
      refused when source and destination are the same account, as a
      rebalance refuses it. No transaction is logged for the capitalisation,
      since the enumeration has no type for it. */
  function PerformClosure(s: Ledger, req: ClosureRequest, now: Timestamp): (r: Result<Ledger>)
    ensures CapitalOf(req) > 0 && CapitalOf(req) > PreviewOf(s).netResult ==> r == Failure(CapitalizationExceedsProfit)
    ensures (0 < CapitalOf(req) <= PreviewOf(s).netResult && (req.source.None? || req.destination.None?)) ==>
      r == Failure(CapitalizationAccountsRequired)
    ensures CapitalizationNamed(s, req) && req.source == req.destination ==> r == Failure(SameAccount)
    ensures (CapitalizationNamed(s, req) && req.source != req.destination
             && !CapitalizationAccountsKnown(s, req)) ==>
      r == Failure(InvalidAccounts)
    ensures (CapitalizationNamed(s, req) && req.source != req.destination && CapitalizationAccountsKnown(s, req)
             && s.accounts[req.source.value].balance < CapitalOf(req)) ==>
      r == Failure(InsufficientFunds)
    ensures CapitalizationFunded(s, req) && req.source != req.destination ==> r.Success?
    ensures CapitalOf(req) <= 0 ==> r.Success? && r.value.accounts == s.accounts
    ensures r.Success? && CapitalOf(req) > 0 ==>
      && CapitalizationFunded(s, req) && req.source != req.destination
      && TwoAccountDelta(s.accounts, r.value.accounts, req.source.value, -CapitalOf(req), req.destination.value, CapitalOf(req))
    ensures r.Success? ==>
      && r.value.closures == s.closures + [ClosureRecord(s, CapitalOf(req), now)]
      && r.value.transactions == s.transactions
      && r.value.users == s.users && r.value.branches == s.branches
      && r.value.debts == s.debts && r.value.cashCounts == s.cashCounts
  {
    var net := PreviewOf(s).netResult;
    var cap := CapitalOf(req);
    if cap > 0 && cap > net then Failure(CapitalizationExceedsProfit)
    else if cap > 0 && (req.source.None? || req.destination.None?) then Failure(CapitalizationAccountsRequired)
    else if cap > 0 && req.source == req.destination then Failure(SameAccount)
    else if cap > 0 && (req.source.value >= |s.accounts| || req.destination.value >= |s.accounts|) then Failure(InvalidAccounts)
    else if cap > 0 && s.accounts[req.source.value].balance < cap then Failure(InsufficientFunds)
    else
      var accounts := if cap > 0 then CapitalizationWrites(s.accounts, req.source.value, req.destination.value, cap) else s.accounts;
      Success(s.(accounts := accounts, closures := s.closures + [ClosureRecord(s, cap, now)]))
  }

  /** Capitalisation only moves money between two accounts of the ledger. */
  lemma ClosureConservesTotal(s: Ledger, req: ClosureRequest, now: Timestamp)
    requires PerformClosure(s, req, now).Success?
    ensures Total(PerformClosure(s, req, now).value.accounts) == Total(s.accounts)
  {
    if CapitalOf(req) > 0 {
      TotalTwoDelta(s.accounts, PerformClosure(s, req, now).value.accounts,
                    req.source.value, -CapitalOf(req), req.destination.value, CapitalOf(req));
    }
  }

  /** A closure made after everything recorded so far starts a new, empty
      period at its closing date. */
  lemma ClosureStartsNextPeriod(s: Ledger, req: ClosureRequest, now: Timestamp)
    requires PerformClosure(s, req, now).Success?
    requires PeriodStart(s.closures) <= now
    requires forall i :: 0 <= i < |s.transactions| ==> s.transactions[i].date <= now
    ensures var p := PreviewOf(PerformClosure(s, req, now).value);
      p.startDate == now && p.transactionsCount == 0 && p.totalIncome == 0 && p.totalExpense == 0 && p.netResult == 0
  {
    var s' := PerformClosure(s, req, now).value;
    var n := |s'.closures| - 1;
    assert s'.closures[..n] == s.closures;
    assert PeriodStart(s'.closures) == now;
    NothingAfterStart(s'.transactions, now);
  }
}

=== FILE: debts.dfy ===
/** The debt ledger: loans paid out of a cash box and the payments that
    bring the money back.

  A debt starts PENDING with its whole amount outstanding; payments lower the
  outstanding balance and never overshoot it; the debt turns PAID exactly
  when nothing is left, and PAID is terminal. The controller closes a
  debt when the residual is at most 0.009 to absorb floating-point noise; in
  whole cents that test is "the residual is at most zero".
 */
module Debts {
  import opened LedgerTypes

  /** The body of a loan request. The debtor's name and the description
      may be absent (undefined or null); the debt stores both in NOT NULL
      columns. */
  datatype LoanRequest = LoanRequest(
    userId: UserId,
    branchId: BranchId,
    cashAccount: AccountId,
    debtorName: Option<string>,
    description: Option<string>,
    amount: Option<Cents>)

  /** The body of a payment request. */
  datatype PaymentRequest = PaymentRequest(
    userId: UserId,
    branchId: BranchId,
    cashAccount: AccountId,
    debtId: DebtId,
    amount: Option<Cents>)

  /** A debt is consistent when its outstanding balance lies between zero
      and the amount lent, and it is PAID exactly when nothing is left. */
  ghost predicate DebtConsistent(d: Debt)
  {
    && 0 <= d.currentBalance <= d.originalAmount
    && (d.status == Paid <==> d.currentBalance == 0)
  }

  ghost predicate AllDebtsConsistent(debts: seq<Debt>)
  {
    forall i :: 0 <= i < |debts| ==> DebtConsistent(debts[i])
  }

  /** Everything still owed to the business. */
  function Outstanding(debts: seq<Debt>): Cents
  {
    if |debts| == 0 then 0 else Outstanding(debts[..|debts| - 1]) + debts[|debts| - 1].currentBalance
  }

  /** The cash box, the user and the branch of a request all exist. */
  predicate LoanPartiesKnown(s: Ledger, req: LoanRequest)
  {
    req.cashAccount < |s.accounts| && req.userId in s.users && req.branchId in s.branches
  }

  /** Every check a loan passes before the money leaves the box: a positive
      amount, known parties, and a box that can cover the amount. */
  predicate LoanFunded(s: Ledger, req: LoanRequest)
  {
    && req.amount.Some? && req.amount.value > 0
    && LoanPartiesKnown(s, req)
    && s.accounts[req.cashAccount].balance >= req.amount.value
  }

  /** Lends money out of a cash box and opens the debt. The debt row is
      inserted after the box is debited; when the debtor's name or the
      description is missing the insert fails and the debit rolls back. */
  function CreateLoan(s: Ledger, req: LoanRequest, now: Timestamp): (r: Result<Ledger>)
    ensures req.amount.None? || req.amount.value <= 0 ==> r == Failure(InvalidAmount)
    ensures req.amount.Some? && req.amount.value > 0 && !LoanPartiesKnown(s, req) ==> r == Failure(InvalidData)
    ensures (req.amount.Some? && req.amount.value > 0 && LoanPartiesKnown(s, req)
             && s.accounts[req.cashAccount].balance < req.amount.value) ==>
      r == Failure(InsufficientFunds)
    ensures LoanFunded(s, req) && (req.debtorName.None? || req.description.None?) ==> r == Failure(RecordRejected)
    ensures LoanFunded(s, req) && req.debtorName.Some? && req.description.Some? ==> r.Success?
    ensures r.Success? ==>
      && LoanFunded(s, req) && req.debtorName.Some? && req.description.Some?
      && OneAccountDelta(s.accounts, r.value.accounts, req.cashAccount, -req.amount.value)
      && r.value.debts == s.debts + [Debt(req.debtorName.value, req.amount.value, req.amount.value, Pending, req.userId)]
      && r.value.transactions == s.transactions
           + [NewTransaction(LoanGiven, req.amount.value, req.userId, req.branchId, Some(req.cashAccount), None, now)]
      && r.value.users == s.users && r.value.branches == s.branches
      && r.value.closures == s.closures && r.value.cashCounts == s.cashCounts
  {
    if req.amount.None? || req.amount.value <= 0 then Failure(InvalidAmount)
    else if req.cashAccount >= |s.accounts| || req.userId !in s.users || req.branchId !in s.branches then Failure(InvalidData)
    else
      var amount := req.amount.value;
      var cash := s.accounts[req.cashAccount];
      if cash.balance < amount then Failure(InsufficientFunds)
      else if req.debtorName.None? || req.description.None? then Failure(RecordRejected)
      else
        Success(s.(accounts := s.accounts[req.cashAccount := cash.(balance := cash.balance - amount)],
                   debts := s.debts + [Debt(req.debtorName.value, amount, amount, Pending, req.userId)],
                   transactions := s.transactions
                     + [NewTransaction(LoanGiven, amount, req.userId, req.branchId, Some(req.cashAccount), None, now)]))
  }

  /** The debt after an accepted payment of `amount`: the residual is kept
      while it is positive; otherwise the balance is set to zero and the debt
      is PAID. The callers have already refused non-positive payments,
      overpayments and paid debts. */
  function ApplyPayment(d: Debt, amount: Cents): (d': Debt)
    requires d.status == Pending && 0 < amount <= d.currentBalance
    ensures d'.debtorName == d.debtorName && d'.originalAmount == d.originalAmount && d'.createdBy == d.createdBy
    ensures d'.currentBalance == d.currentBalance - amount
    ensures d'.status == Paid <==> amount == d.currentBalance
    ensures DebtConsistent(d) ==> DebtConsistent(d')
  {
    var residual := d.currentBalance - amount;
    if residual <= 0 then d.(currentBalance := 0, status := Paid)
    else d.(currentBalance := residual)
  }

  /** The payment itself is acceptable: a positive amount against a known,
      PENDING debt that it does not overshoot. */
  predicate PaymentAccepted(s: Ledger, req: PaymentRequest)
  {
    && req.amount.Some? && req.amount.value > 0
    && req.debtId < |s.debts| && s.debts[req.debtId].status == Pending
    && req.amount.value <= s.debts[req.debtId].currentBalance
  }

  /** The cash box, the user and the branch of a payment all exist. */
  predicate PaymentPartiesKnown(s: Ledger, req: PaymentRequest)
  {
    req.cashAccount < |s.accounts| && req.userId in s.users && req.branchId in s.branches
  }

  /** Takes a payment against a debt into a cash box. */
  function PayDebt(s: Ledger, req: PaymentRequest, now: Timestamp): (r: Result<Ledger>)
    ensures req.amount.None? || req.amount.value <= 0 ==> r == Failure(InvalidAmount)
    ensures req.amount.Some? && req.amount.value > 0 && req.debtId >= |s.debts| ==> r == Failure(DebtNotFound)
    ensures (req.amount.Some? && req.amount.value > 0 && req.debtId < |s.debts|
             && s.debts[req.debtId].status == Paid) ==>
      r == Failure(DebtAlreadyPaid)
    ensures (req.amount.Some? && req.amount.value > 0 && req.debtId < |s.debts|
             && s.debts[req.debtId].status == Pending && s.debts[req.debtId].currentBalance < req.amount.value) ==>
      r == Failure(Overpayment)
    ensures PaymentAccepted(s, req) && !PaymentPartiesKnown(s, req) ==> r == Failure(InvalidData)
    ensures PaymentAccepted(s, req) && PaymentPartiesKnown(s, req) ==> r.Success?
    ensures r.Success? ==>
      && PaymentAccepted(s, req) && PaymentPartiesKnown(s, req)
      && OneAccountDelta(s.accounts, r.value.accounts, req.cashAccount, req.amount.value)
      && |r.value.debts| == |s.debts|
      && r.value.debts[req.debtId].currentBalance == s.debts[req.debtId].currentBalance - req.amount.value
      && r.value.debts[req.debtId].currentBalance >= 0
      && (r.value.debts[req.debtId].status == Paid <==> req.amount.value == s.debts[req.debtId].currentBalance)
      && r.value.debts == s.debts[req.debtId := ApplyPayment(s.debts[req.debtId], req.amount.value)]
      && r.value.transactions == s.transactions
           + [NewTransaction(DebtPayment, req.amount.value, req.userId, req.branchId, Some(req.cashAccount), None, now)]
      && r.value.users == s.users && r.value.branches == s.branches
      && r.value.closures == s.closures && r.value.cashCounts == s.cashCounts
  {
    if req.amount.None? || req.amount.value <= 0 then Failure(InvalidAmount)
    else if req.debtId >= |s.debts| then Failure(DebtNotFound)
    else
      var amount := req.amount.value;
      var debt := s.debts[req.debtId];
      if debt.status == Paid then Failure(DebtAlreadyPaid)
      else if debt.currentBalance < amount then Failure(Overpayment)
      else if req.cashAccount >= |s.accounts| || req.userId !in s.users || req.branchId !in s.branches then Failure(InvalidData)
      else
        var cash := s.accounts[req.cashAccount];
        Success(s.(accounts := s.accounts[req.cashAccount := cash.(balance := cash.balance + amount)],
                   debts := s.debts[req.debtId := ApplyPayment(debt, amount)],
                   transactions := s.transactions
                     + [NewTransaction(DebtPayment, amount, req.userId, req.branchId, Some(req.cashAccount), None, now)]))
  }

  /** Replacing one debt changes the outstanding total by the change of its
      balance. */
  lemma {:induction false} OutstandingUpdate(debts: seq<Debt>, x: nat, d: Debt)
    requires x < |debts|
    ensures Outstanding(debts[x := d]) == Outstanding(debts) - debts[x].currentBalance + d.currentBalance
  {
    var n := |debts| - 1;
    if x == n {
      assert debts[x := d][..n] == debts[..n];
    } else {
      assert debts[x := d][..n] == debts[..n][x := d];
      OutstandingUpdate(debts[..n], x, d);
    }
  }

  /** A loan turns cash into a receivable: cash on hand plus what is owed
      stays the same. */
  lemma LoanConservesAssets(s: Ledger, req: LoanRequest, now: Timestamp)
    requires CreateLoan(s, req, now).Success?
    ensures var s' := CreateLoan(s, req, now).value;
      Total(s'.accounts) + Outstanding(s'.debts) == Total(s.accounts) + Outstanding(s.debts)
  {
    var s' := CreateLoan(s, req, now).value;
    TotalOneDelta(s.accounts, s'.accounts, req.cashAccount, -req.amount.value);
    assert s'.debts[..|s'.debts| - 1] == s.debts;
  }

  /** A payment turns a receivable back into cash: cash on hand plus what is
      owed stays the same. */
  lemma PaymentConservesAssets(s: Ledger, req: PaymentRequest, now: Timestamp)
    requires PayDebt(s, req, now).Success?
    ensures var s' := PayDebt(s, req, now).value;
      Total(s'.accounts) + Outstanding(s'.debts) == Total(s.accounts) + Outstanding(s.debts)
  {
    var s' := PayDebt(s, req, now).value;
    TotalOneDelta(s.accounts, s'.accounts, req.cashAccount, req.amount.value);
    OutstandingUpdate(s.debts, req.debtId, ApplyPayment(s.debts[req.debtId], req.amount.value));
  }

  /** Loans and payments keep every debt consistent. */
  lemma DebtOperationsKeepDebtsConsistent(s: Ledger, loan: LoanRequest, payment: PaymentRequest, now: Timestamp)
    requires AllDebtsConsistent(s.debts)
    ensures CreateLoan(s, loan, now).Success? ==> AllDebtsConsistent(CreateLoan(s, loan, now).value.debts)
    ensures PayDebt(s, payment, now).Success? ==> AllDebtsConsistent(PayDebt(s, payment, now).value.debts)
  {
    if PayDebt(s, payment, now).Success? {
      var debts' := PayDebt(s, payment, now).value.debts;
      assert forall i :: 0 <= i < |debts'| && i != payment.debtId ==> debts'[i] == s.debts[i];
    }
  }

  /** Paying off the whole residual closes the debt, and any further
      payment against it is refused. */
  lemma PaidIsTerminal(s: Ledger, req: PaymentRequest, next: PaymentRequest, now: Timestamp, later: Timestamp)
    requires PayDebt(s, req, now).Success?
    requires req.amount == Some(s.debts[req.debtId].currentBalance)
    requires next.debtId == req.debtId && next.amount.Some? && next.amount.value > 0
    ensures PayDebt(s, req, now).value.debts[req.debtId].status == Paid
    ensures PayDebt(s, req, now).value.debts[req.debtId].currentBalance == 0
    ensures PayDebt(PayDebt(s, req, now).value, next, later) == Failure(DebtAlreadyPaid)
  {
  }

  /** A debt of 100.00 paid with 60.00 and then 40.00 ends PAID with nothing
      outstanding; a third payment is refused. */
  lemma SixtyThenFortySettlesAHundred(s: Ledger, first: PaymentRequest, second: PaymentRequest, third: PaymentRequest, now: Timestamp)
    requires first.debtId < |s.debts| && s.debts[first.debtId].status == Pending
    requires s.debts[first.debtId].currentBalance == 10000
    requires first.cashAccount < |s.accounts| && first.userId in s.users && first.branchId in s.branches
    requires first.amount == Some(6000)
    requires second == first.(amount := Some(4000))
    requires third.debtId == first.debtId && third.amount.Some? && third.amount.value > 0
    ensures PayDebt(s, first, now).Success?
    ensures PayDebt(s, first, now).value.debts[first.debtId].status == Pending
    ensures PayDebt(PayDebt(s, first, now).value, second, now).Success?
    ensures PayDebt(PayDebt(s, first, now).value, second, now).value.debts[first.debtId] ==
            s.debts[first.debtId].(currentBalance := 0, status := Paid)
    ensures PayDebt(PayDebt(PayDebt(s, first, now).value, second, now).value, third, now) == Failure(DebtAlreadyPaid)
  {
    var s1 := PayDebt(s, first, now).value;
    assert s1.debts[first.debtId].currentBalance == 4000;
    var s2 := PayDebt(s1, second, now).value;
    assert s2.debts[first.debtId].status == Paid;
  }
}

=== FILE: ledger_types.dfy ===
/** The persisted entities of the ledger and the state they live in.

  Money is held in integer cents: every balance and amount column of the
  store is a fixed-point decimal with two fractional digits, so a value of
  12.34 is the integer 1234 here. Records that the store identifies by a
  generated key (accounts, transactions, debts, closures, cash counts) are
  kept in sequences and identified by their position, which also fixes the
  order in which a lookup returns "the first" matching row.
 */
module LedgerTypes {

  type Cents = int
  type AccountId = nat
  type UserId = nat
  type BranchId = nat
  type TransactionId = nat
  type DebtId = nat
  /** Points in time, as a count of ticks since the epoch. */
  type Timestamp = nat

  datatype Option<+T> = None | Some(value: T)

  /** The reasons an operation is refused; every refusal leaves the store as it was. */
  datatype Error =
    | MissingFields
    | InvalidAmount
    | NegativeCommission
    | UserNotFound
    | UserInactive
    | AccountNotFound
    | AccountNotOperable
    | AccountInactive
    | NoCashAccountAvailable
    | SameAccount
    | InsufficientFunds
    | InvalidOperationType
    | InvalidData
    | TransactionNotFound
    | AlreadyAnnulled
    | MissingTransactionAccount
    | DebtNotFound
    | DebtAlreadyPaid
    | Overpayment
    | CapitalizationExceedsProfit
    | CapitalizationAccountsRequired
    | InvalidAccounts
    | MissingReportedAmount
    /** The transaction row names no existing branch, and its branch column
        is NOT NULL, so the insert fails and the unit of work rolls back. */
    | MissingBranch
    /** A row to insert leaves a NOT NULL column empty or has no storable
        type, so the insert fails and the unit of work rolls back. */
    | RecordRejected

  datatype Result<+T> = Success(value: T) | Failure(error: Error)

  /** A numeric field of a request body as it arrives: absent (undefined or
      null), present but not a number, or a number of cents. */
  datatype RawNumber = Absent | NotANumber | Amount(cents: int)

  /** The eleven kinds of money movement a transaction may record. */
  datatype TransactionType =
    | Deposit
    | Withdrawal
    | ServicePayment
    | Sale
    | Expense
    | Payroll
    | Purchase
    | LoanGiven
    | DebtPayment
    | InternalTransfer
    | CapitalInjection

  datatype TransactionStatus = Valid | Annulled

  datatype AccountKind = Physical | Bank | Platform | Virtual

  datatype Account = Account(
    name: string,
    kind: AccountKind,
    balance: Cents,
    active: bool,
    owner: Option<UserId>,
    branch: Option<BranchId>)

  datatype User = User(active: bool)

  /** One recorded movement. `account` is where the money leaves (or, for
      an injection, the account it enters); `destination` is the second
      account of a two-account movement. The branch is required: its column
      is NOT NULL. */
  datatype Transaction = Transaction(
    kind: TransactionType,
    amount: Cents,
    commission: Cents,
    status: TransactionStatus,
    user: UserId,
    branch: BranchId,
    account: Option<AccountId>,
    destination: Option<AccountId>,
    date: Timestamp)

  datatype DebtStatus = Pending | Paid

  datatype Debt = Debt(
    debtorName: string,
    originalAmount: Cents,
    currentBalance: Cents,
    status: DebtStatus,
    createdBy: UserId)

  datatype PeriodClosure = PeriodClosure(
    closingDate: Timestamp,
    startDate: Timestamp,
    totalIncome: Cents,
    totalExpense: Cents,
    netResult: Cents,
    capitalizedAmount: Cents,
    carriedOverAmount: Cents)

  datatype CashCount = CashCount(
    account: AccountId,
    user: UserId,
    branch: BranchId,
    expectedBalance: Cents,
    reportedBalance: Cents,
    difference: Cents)

  /** The whole store a unit of work reads and writes. */
  datatype Ledger = Ledger(
    accounts: seq<Account>,
    users: map<UserId, User>,
    branches: set<BranchId>,
    transactions: seq<Transaction>,
    debts: seq<Debt>,
    closures: seq<PeriodClosure>,
    cashCounts: seq<CashCount>)

  /** The string each transaction type is stored as. */
  function TypeCode(t: TransactionType): (code: string)
    ensures code != ""
  {
    match t
    case Deposit => "DEPOSITO"
    case Withdrawal => "RETIRO"
    case ServicePayment => "PAGO_SERV"
    case Sale => "VENTA"
    case Expense => "GASTO"
    case Payroll => "PAGO_NOMINA"
    case Purchase => "COMPRA_INVENTARIO"
    case LoanGiven => "PRESTAMO_DAR"
    case DebtPayment => "ABONO_DEUDA"
    case InternalTransfer => "TRANSFERENCIA_INTERNA"
    case CapitalInjection => "INYECCION_CAPITAL"
  }

  /** Reads a stored or requested type string; any string that is not one of
      the eleven codes names no transaction type. */
  function ParseType(code: string): (r: Option<TransactionType>)
    ensures r.Some? ==> TypeCode(r.value) == code
  {
    if code == "DEPOSITO" then Some(Deposit)
    else if code == "RETIRO" then Some(Withdrawal)
    else if code == "PAGO_SERV" then Some(ServicePayment)
    else if code == "VENTA" then Some(Sale)
    else if code == "GASTO" then Some(Expense)
    else if code == "PAGO_NOMINA" then Some(Payroll)
    else if code == "COMPRA_INVENTARIO" then Some(Purchase)
    else if code == "PRESTAMO_DAR" then Some(LoanGiven)
    else if code == "ABONO_DEUDA" then Some(DebtPayment)
    else if code == "TRANSFERENCIA_INTERNA" then Some(InternalTransfer)
    else if code == "INYECCION_CAPITAL" then Some(CapitalInjection)
    else None
  }

  /** The string each transaction status is stored as. */
  function StatusCode(s: TransactionStatus): (code: string)
    ensures code != ""
  {
    match s
    case Valid => "VALIDO"
    case Annulled => "ANULADO"
  }

  function ParseStatus(code: string): (r: Option<TransactionStatus>)
    ensures r.Some? ==> StatusCode(r.value) == code
  {
    if code == "VALIDO" then Some(Valid)
    else if code == "ANULADO" then Some(Annulled)
    else None
  }

  /** Every stored type string reads back as the type it was written from,
      so the enumeration is closed: the eleven codes and nothing else. */
  lemma TypeCodeRoundTrip(t: TransactionType)
    ensures ParseType(TypeCode(t)) == Some(t)
  {
  }

  /** Distinct types are stored as distinct strings. */
  lemma TypeCodeInjective(t: TransactionType, u: TransactionType)
    ensures TypeCode(t) == TypeCode(u) ==> t == u
  {
    TypeCodeRoundTrip(t);
    TypeCodeRoundTrip(u);
  }

  lemma StatusCodeRoundTrip(s: TransactionStatus)
    ensures ParseStatus(StatusCode(s)) == Some(s)
  {
  }

  /** A transaction as a freshly constructed row: the columns the caller does
      not set take their declared defaults, commission 0 and status VALID. */
  function NewTransaction(
    kind: TransactionType, amount: Cents, user: UserId, branch: BranchId,
    account: Option<AccountId>, destination: Option<AccountId>, date: Timestamp): (t: Transaction)
    ensures t.commission == 0 && t.status == Valid
    ensures t.kind == kind && t.amount == amount && t.account == account && t.destination == destination
  {
    Transaction(kind, amount, 0, Valid, user, branch, account, destination, date)
  }

  /** The branch a request names, if it names one that exists. */
  function FindBranch(s: Ledger, branchId: Option<BranchId>): (r: Option<BranchId>)
    ensures r.Some? <==> branchId.Some? && branchId.value in s.branches
    ensures r.Some? ==> r == branchId
  {
    if branchId.Some? && branchId.value in s.branches then branchId else None
  }

  /** The sum of all account balances. */
  function Total(accounts: seq<Account>): Cents
  {
    if |accounts| == 0 then 0 else Total(accounts[..|accounts| - 1]) + accounts[|accounts| - 1].balance
  }

  ghost predicate NonNegativeBalances(accounts: seq<Account>)
  {
    forall i :: 0 <= i < |accounts| ==> accounts[i].balance >= 0
  }

  /** `after` is `before` with the balance of account `x` moved by `dx` and
      nothing else changed. */
  ghost predicate OneAccountDelta(before: seq<Account>, after: seq<Account>, x: AccountId, dx: int)
  {
    && x < |before|
    && |after| == |before|
    && after[x] == before[x].(balance := before[x].balance + dx)
    && forall j :: 0 <= j < |before| && j != x ==> after[j] == before[j]
  }

  /** `after` is `before` with the balances of two distinct accounts moved by
      `dx` and `dy` and nothing else changed. */
  ghost predicate TwoAccountDelta(before: seq<Account>, after: seq<Account>, x: AccountId, dx: int, y: AccountId, dy: int)
  {
    && x != y
    && x < |before|
    && y < |before|
    && |after| == |before|
    && after[x] == before[x].(balance := before[x].balance + dx)
    && after[y] == before[y].(balance := before[y].balance + dy)
    && forall j :: 0 <= j < |before| && j != x && j != y ==> after[j] == before[j]
  }

  /** `s'` is `s` with one transaction appended to the log; accounts aside,
      no other table changes. */
  ghost predicate Logged(s: Ledger, s': Ledger, t: Transaction)
  {
    && s'.transactions == s.transactions + [t]
    && s'.users == s.users
    && s'.branches == s.branches
    && s'.debts == s.debts
    && s'.closures == s.closures
    && s'.cashCounts == s.cashCounts
  }

  /** Replacing one account changes the total by the change of its balance. */
  lemma {:induction false} TotalUpdate(accounts: seq<Account>, x: nat, a: Account)
    requires x < |accounts|
    ensures Total(accounts[x := a]) == Total(accounts) - accounts[x].balance + a.balance
  {
    var n := |accounts| - 1;
    if x == n {
      assert accounts[x := a][..n] == accounts[..n];
    } else {
      assert accounts[x := a][..n] == accounts[..n][x := a];
      TotalUpdate(accounts[..n], x, a);
    }
  }

  /** Moving one balance by `dx` moves the total by `dx`. */
  lemma TotalOneDelta(before: seq<Account>, after: seq<Account>, x: AccountId, dx: int)
    requires OneAccountDelta(before, after, x, dx)
    ensures Total(after) == Total(before) + dx
  {
    assert after == before[x := before[x].(balance := before[x].balance + dx)];
    TotalUpdate(before, x, before[x].(balance := before[x].balance + dx));
  }

  /** Moving two balances by `dx` and `dy` moves the total by `dx + dy`. */
  lemma TotalTwoDelta(before: seq<Account>, after: seq<Account>, x: AccountId, dx: int, y: AccountId, dy: int)
    requires TwoAccountDelta(before, after, x, dx, y, dy)
    ensures Total(after) == Total(before) + dx + dy
  {
    var mid := before[x := before[x].(balance := before[x].balance + dx)];
    assert after == mid[y := before[y].(balance := before[y].balance + dy)];
    TotalUpdate(before, x, before[x].(balance := before[x].balance + dx));
    TotalUpdate(mid, y, before[y].(balance := before[y].balance + dy));
  }

  /** Two opposite moves of the same two balances cancel out exactly. */
  lemma TwoDeltaCancels(a: seq<Account>, b: seq<Account>, c: seq<Account>, x: AccountId, dx: int, y: AccountId, dy: int)
    requires TwoAccountDelta(a, b, x, dx, y, dy)
    requires TwoAccountDelta(b, c, x, -dx, y, -dy)
    ensures c == a
  {
    assert forall j :: 0 <= j < |a| ==> c[j] == a[j];
  }
}

=== FILE: operations.dfy ===
/** The forward money movements of the transaction controller: client
    operations (deposit, service payment, withdrawal) between a bank or
    platform account and a physical cash box, internal rebalancing, capital
    injection and expense registration.

  Each operation is one unit of work: it either fails, and the store stays
  as it was (the caller keeps its old `Ledger`), or it returns the whole new
  store, with the moved balances and one appended transaction.
 */
module Operations {
  import opened LedgerTypes
  import opened AccountNames

  // ---------------------------------------------------------------------
  // Choosing the physical cash box
  // ---------------------------------------------------------------------

  /** An active physical box assigned to the user. */
  predicate IsUserTill(a: Account, user: UserId)
  {
    a.owner == Some(user) && a.kind == Physical && a.active
  }

  /** A user's box that is not a vault or reserve. */
  predicate IsOperationalTill(a: Account, user: UserId)
  {
    IsUserTill(a, user) && IsOperationalName(a.name)
  }

  /** An active physical box of the branch. */
  predicate IsBranchTill(a: Account, branch: BranchId)
  {
    a.branch == Some(branch) && a.kind == Physical && a.active
  }

  /** The explicitly requested box exists and is physical (its status is
      not looked at). */
  predicate ExplicitCash(accounts: seq<Account>, explicit: Option<AccountId>)
  {
    explicit.Some? && explicit.value < |accounts| && accounts[explicit.value].kind == Physical
  }

  ghost predicate HasUserTill(accounts: seq<Account>, user: UserId)
  {
    exists j :: 0 <= j < |accounts| && IsUserTill(accounts[j], user)
  }

  ghost predicate HasOperationalTill(accounts: seq<Account>, user: UserId)
  {
    exists j :: 0 <= j < |accounts| && IsOperationalTill(accounts[j], user)
  }

  ghost predicate HasBranchTill(accounts: seq<Account>, branch: BranchId)
  {
    exists j :: 0 <= j < |accounts| && IsBranchTill(accounts[j], branch)
  }

  /** The first account at or after position `k` that satisfies `p`. */
  function FirstFrom(accounts: seq<Account>, p: Account -> bool, k: nat): (r: Option<AccountId>)
    requires k <= |accounts|
    ensures r.Some? ==> k <= r.value < |accounts| && p(accounts[r.value])
    ensures r.Some? ==> forall j :: k <= j < r.value ==> !p(accounts[j])
    ensures r.None? ==> forall j :: k <= j < |accounts| ==> !p(accounts[j])
    decreases |accounts| - k
  {
    if k == |accounts| then None
    else if p(accounts[k]) then Some(k)
    else FirstFrom(accounts, p, k + 1)
  }

  /** The cash box an operation settles against: the explicitly named
      physical box; else the user's first active box that is not a vault or
      reserve, or failing that the user's first active box at all; else the
      branch's first active physical box; else none. */
  function ResolveCashAccount(accounts: seq<Account>, user: UserId, branch: Option<BranchId>, explicit: Option<AccountId>): (r: Option<AccountId>)
    ensures r.Some? ==> r.value < |accounts| && accounts[r.value].kind == Physical
    ensures ExplicitCash(accounts, explicit) ==> r == explicit
    ensures !ExplicitCash(accounts, explicit) && HasUserTill(accounts, user) ==>
      && r.Some?
      && IsUserTill(accounts[r.value], user)
      && (HasOperationalTill(accounts, user) ==>
            IsOperationalTill(accounts[r.value], user) && forall j :: 0 <= j < r.value ==> !IsOperationalTill(accounts[j], user))
      && (!HasOperationalTill(accounts, user) ==>
            forall j :: 0 <= j < r.value ==> !IsUserTill(accounts[j], user))
    ensures !ExplicitCash(accounts, explicit) && !HasUserTill(accounts, user) && branch.Some? && HasBranchTill(accounts, branch.value) ==>
      && r.Some?
      && IsBranchTill(accounts[r.value], branch.value)
      && forall j :: 0 <= j < r.value ==> !IsBranchTill(accounts[j], branch.value)
    ensures r.None? <==>
      !ExplicitCash(accounts, explicit) && !HasUserTill(accounts, user) && (branch.None? || !HasBranchTill(accounts, branch.value))
  {
    if ExplicitCash(accounts, explicit) then explicit
    else
      var till := FirstFrom(accounts, a => IsUserTill(a, user), 0);
      if till.Some? then
        var operational := FirstFrom(accounts, a => IsOperationalTill(a, user), 0);
        if operational.Some? then operational else till
      else if branch.Some? then FirstFrom(accounts, a => IsBranchTill(a, branch.value), 0)
      else None
  }

  // ---------------------------------------------------------------------
  // Client operations
  // ---------------------------------------------------------------------

  /** The body of a client-operation request. */
  datatype OperationRequest = OperationRequest(
    userId: Option<UserId>,
    branchId: Option<BranchId>,
    accountId: Option<AccountId>,
    typeCode: string,
    amount: RawNumber,
    commission: RawNumber,
    cashAccountId: Option<AccountId>)

  /** A request that passed the input checks, with its numbers read. */
  datatype OperationInput = OperationInput(
    user: UserId,
    branchId: Option<BranchId>,
    bank: AccountId,
    typeCode: string,
    amount: Cents,
    commission: Cents,
    cashAccountId: Option<AccountId>)

  datatype AccountPair = AccountPair(bank: AccountId, cash: AccountId)

  /** The new store together with the two accounts the operation settled. */
  datatype OperationReceipt = OperationReceipt(ledger: Ledger, bank: AccountId, cash: AccountId)

  predicate PositiveAmount(raw: RawNumber)
  {
    raw.Amount? && raw.cents > 0
  }

  /** A commission is acceptable when absent or a non-negative number. */
  predicate CommissionAcceptable(raw: RawNumber)
  {
    raw.Absent? || (raw.Amount? && raw.cents >= 0)
  }

  predicate IsClientKind(k: Option<TransactionType>)
  {
    k == Some(Deposit) || k == Some(ServicePayment) || k == Some(Withdrawal)
  }

  /** The account kinds a client operation may be made on. */
  predicate Operable(a: Account)
  {
    a.kind == Bank || a.kind == Platform
  }

  /** The checks made on the request body before the store is opened. */
  function ValidateOperation(req: OperationRequest): (r: Result<OperationInput>)
    ensures req.userId.None? || req.accountId.None? || req.typeCode == "" ==> r == Failure(MissingFields)
    ensures req.userId.Some? && req.accountId.Some? && req.typeCode != "" && !PositiveAmount(req.amount) ==>
      r == Failure(InvalidAmount)
    ensures req.userId.Some? && req.accountId.Some? && req.typeCode != "" && PositiveAmount(req.amount) && !CommissionAcceptable(req.commission) ==>
      r == Failure(NegativeCommission)
    ensures r.Success? <==>
      req.userId.Some? && req.accountId.Some? && req.typeCode != "" && PositiveAmount(req.amount) && CommissionAcceptable(req.commission)
    ensures r.Success? ==>
      && r.value.amount == req.amount.cents > 0
      && r.value.commission >= 0
      && (req.commission.Absent? ==> r.value.commission == 0)
      && (req.commission.Amount? ==> r.value.commission == req.commission.cents)
      && r.value.user == req.userId.value
      && r.value.bank == req.accountId.value
      && r.value.typeCode == req.typeCode
      && r.value.branchId == req.branchId
      && r.value.cashAccountId == req.cashAccountId
  {
    if req.userId.None? || req.accountId.None? || req.typeCode == "" then Failure(MissingFields)
    else if !PositiveAmount(req.amount) then Failure(InvalidAmount)
    else if req.commission.NotANumber? || (req.commission.Amount? && req.commission.cents < 0) then Failure(NegativeCommission)
    else
      var commission := if req.commission.Amount? then req.commission.cents else 0;
      Success(OperationInput(req.userId.value, req.branchId, req.accountId.value, req.typeCode,
                             req.amount.cents, commission, req.cashAccountId))
  }

  /** Finds the acting user, the operated account and the cash box. */
  function LocateAccounts(s: Ledger, input: OperationInput): (r: Result<AccountPair>)
    ensures input.user !in s.users ==> r == Failure(UserNotFound)
    ensures input.user in s.users && !s.users[input.user].active ==> r == Failure(UserInactive)
    ensures input.user in s.users && s.users[input.user].active && input.bank >= |s.accounts| ==>
      r == Failure(AccountNotFound)
    ensures input.user in s.users && s.users[input.user].active && input.bank < |s.accounts| && !Operable(s.accounts[input.bank]) ==>
      r == Failure(AccountNotOperable)
    ensures (input.user in s.users && s.users[input.user].active && input.bank < |s.accounts|
             && Operable(s.accounts[input.bank]) && !s.accounts[input.bank].active) ==>
      r == Failure(AccountInactive)
    ensures (input.user in s.users && s.users[input.user].active && input.bank < |s.accounts|
             && Operable(s.accounts[input.bank]) && s.accounts[input.bank].active
             && ResolveCashAccount(s.accounts, input.user, FindBranch(s, input.branchId), input.cashAccountId).None?) ==>
      r == Failure(NoCashAccountAvailable)
    ensures (input.user in s.users && s.users[input.user].active && input.bank < |s.accounts|
             && Operable(s.accounts[input.bank]) && s.accounts[input.bank].active
             && ResolveCashAccount(s.accounts, input.user, FindBranch(s, input.branchId), input.cashAccountId).Some?) ==>
      r.Success?
    ensures r.Success? ==>
      && input.user in s.users && s.users[input.user].active
      && r.value.bank == input.bank
      && input.bank < |s.accounts| && Operable(s.accounts[input.bank]) && s.accounts[input.bank].active
      && Some(r.value.cash) == ResolveCashAccount(s.accounts, input.user, FindBranch(s, input.branchId), input.cashAccountId)
      && r.value.cash < |s.accounts| && s.accounts[r.value.cash].kind == Physical
      && r.value.cash != r.value.bank
  {
    if input.user !in s.users then Failure(UserNotFound)
    else if !s.users[input.user].active then Failure(UserInactive)
    else if input.bank >= |s.accounts| then Failure(AccountNotFound)
    else if !Operable(s.accounts[input.bank]) then Failure(AccountNotOperable)
    else if !s.accounts[input.bank].active then Failure(AccountInactive)
    else
      match ResolveCashAccount(s.accounts, input.user, FindBranch(s, input.branchId), input.cashAccountId)
      case None => Failure(NoCashAccountAvailable)
      case Some(cash) =>
        if cash == input.bank then Failure(SameAccount)
        else Success(AccountPair(input.bank, cash))
  }

  /** The transaction a client operation records. */
  function OperationRecord(input: OperationInput, kind: TransactionType, pair: AccountPair, branch: BranchId, now: Timestamp): Transaction
  {
    Transaction(kind, input.amount, input.commission, Valid, input.user, branch, Some(pair.bank), Some(pair.cash), now)
  }

  /** The account whose balance pays out the amount: the bank account for a
      deposit or service payment, the cash box for a withdrawal. */
  predicate Funded(accounts: seq<Account>, k: Option<TransactionType>, amount: Cents, bank: AccountId, cash: AccountId)
    requires bank < |accounts| && cash < |accounts|
  {
    if k == Some(Withdrawal) then accounts[cash].balance >= amount else accounts[bank].balance >= amount
  }

  /** The balance arithmetic of a client operation, then the insert of its
      transaction, which needs an existing branch. */
  function Settle(s: Ledger, input: OperationInput, pair: AccountPair, now: Timestamp): (r: Result<Ledger>)
    requires pair.bank < |s.accounts| && pair.cash < |s.accounts| && pair.bank != pair.cash
    requires input.commission >= 0
    ensures var k := ParseType(input.typeCode);
      (k == Some(Deposit) || k == Some(ServicePayment)) ==>
        && (s.accounts[pair.bank].balance < input.amount ==> r == Failure(InsufficientFunds))
        && (s.accounts[pair.bank].balance >= input.amount && FindBranch(s, input.branchId).Some? ==>
              r.Success? && TwoAccountDelta(s.accounts, r.value.accounts, pair.bank, -input.amount, pair.cash, input.amount + input.commission))
    ensures ParseType(input.typeCode) == Some(Withdrawal) ==>
        && (s.accounts[pair.cash].balance < input.amount ==> r == Failure(InsufficientFunds))
        && (s.accounts[pair.cash].balance >= input.amount && FindBranch(s, input.branchId).Some? ==>
              r.Success? && TwoAccountDelta(s.accounts, r.value.accounts, pair.bank, input.amount, pair.cash, input.commission - input.amount))
    ensures (IsClientKind(ParseType(input.typeCode)) && Funded(s.accounts, ParseType(input.typeCode), input.amount, pair.bank, pair.cash)
             && FindBranch(s, input.branchId).None?) ==>
      r == Failure(MissingBranch)
    ensures !IsClientKind(ParseType(input.typeCode)) ==> r == Failure(InvalidOperationType)
    ensures r.Success? ==>
      && IsClientKind(ParseType(input.typeCode))
      && FindBranch(s, input.branchId).Some?
      && Logged(s, r.value, OperationRecord(input, ParseType(input.typeCode).value, pair, FindBranch(s, input.branchId).value, now))
  {
    var kind := ParseType(input.typeCode);
    var bank := s.accounts[pair.bank];
    var cash := s.accounts[pair.cash];
    if kind == Some(Deposit) || kind == Some(ServicePayment) then
      if bank.balance < input.amount then Failure(InsufficientFunds)
      else if FindBranch(s, input.branchId).None? then Failure(MissingBranch)
      else
        var accounts := s.accounts[pair.cash := cash.(balance := cash.balance + (input.amount + input.commission))]
                                  [pair.bank := bank.(balance := bank.balance - input.amount)];
        Success(s.(accounts := accounts,
                   transactions := s.transactions + [OperationRecord(input, kind.value, pair, FindBranch(s, input.branchId).value, now)]))
    else if kind == Some(Withdrawal) then
      if cash.balance < input.amount then Failure(InsufficientFunds)
      else if FindBranch(s, input.branchId).None? then Failure(MissingBranch)
      else
        var cashAfter := cash.balance - input.amount;
        var cashFinal := if input.commission > 0 then cashAfter + input.commission else cashAfter;
        var accounts := s.accounts[pair.cash := cash.(balance := cashFinal)]
                                  [pair.bank := bank.(balance := bank.balance + input.amount)];
        Success(s.(accounts := accounts,
                   transactions := s.transactions + [OperationRecord(input, kind.value, pair, FindBranch(s, input.branchId).value, now)]))
    else Failure(InvalidOperationType)
  }

  /** A client operation (deposit, service payment or withdrawal) from the
      request body to the new store. */
  function CreateOperation(s: Ledger, req: OperationRequest, now: Timestamp): (r: Result<OperationReceipt>)
    ensures ValidateOperation(req).Failure? ==> r == Failure(ValidateOperation(req).error)
    ensures (req.userId.Some? && req.accountId.Some? && req.typeCode != ""
             && PositiveAmount(req.amount) && CommissionAcceptable(req.commission)
             && req.userId.value in s.users && s.users[req.userId.value].active
             && req.accountId.value < |s.accounts| && Operable(s.accounts[req.accountId.value]) && s.accounts[req.accountId.value].active
             && ResolveCashAccount(s.accounts, req.userId.value, FindBranch(s, req.branchId), req.cashAccountId).Some?
             && IsClientKind(ParseType(req.typeCode))
             && Funded(s.accounts, ParseType(req.typeCode), req.amount.cents, req.accountId.value,
                       ResolveCashAccount(s.accounts, req.userId.value, FindBranch(s, req.branchId), req.cashAccountId).value)
             && FindBranch(s, req.branchId).Some?) ==>
      r.Success?
    ensures r.Success? ==>
      var A := req.amount.cents;
      var C := if req.commission.Amount? then req.commission.cents else 0;
      var k := ParseType(req.typeCode);
      && PositiveAmount(req.amount) && CommissionAcceptable(req.commission)
      && req.userId.Some? && req.userId.value in s.users && s.users[req.userId.value].active
      && req.accountId == Some(r.value.bank)
      && r.value.bank < |s.accounts| && Operable(s.accounts[r.value.bank]) && s.accounts[r.value.bank].active
      && r.value.cash < |s.accounts| && s.accounts[r.value.cash].kind == Physical
      && Some(r.value.cash) == ResolveCashAccount(s.accounts, req.userId.value, FindBranch(s, req.branchId), req.cashAccountId)
      && IsClientKind(k)
      && FindBranch(s, req.branchId).Some?
      && ((k == Some(Deposit) || k == Some(ServicePayment)) ==>
            s.accounts[r.value.bank].balance >= A
            && TwoAccountDelta(s.accounts, r.value.ledger.accounts, r.value.bank, -A, r.value.cash, A + C))
      && (k == Some(Withdrawal) ==>
            s.accounts[r.value.cash].balance >= A
            && TwoAccountDelta(s.accounts, r.value.ledger.accounts, r.value.bank, A, r.value.cash, C - A))
      && Logged(s, r.value.ledger,
                Transaction(k.value, A, C, Valid, req.userId.value, FindBranch(s, req.branchId).value,
                            Some(r.value.bank), Some(r.value.cash), now))
  {
    match ValidateOperation(req)
    case Failure(e) => Failure(e)
    case Success(input) =>
      match LocateAccounts(s, input)
      case Failure(e) => Failure(e)
      case Success(pair) =>
        match Settle(s, input, pair, now)
        case Failure(e) => Failure(e)
        case Success(s') => Success(OperationReceipt(s', pair.bank, pair.cash))
  }

  /** The same-account guard can never fire: the operated account is a bank
      or platform account, and every box the resolution returns is physical. */
  lemma CashBoxNeverTheOperatedAccount(s: Ledger, input: OperationInput)
    requires input.bank < |s.accounts| && Operable(s.accounts[input.bank])
    ensures ResolveCashAccount(s.accounts, input.user, FindBranch(s, input.branchId), input.cashAccountId) != Some(input.bank)
  {
  }

  /** A successful client operation brings exactly the commission into the
      ledger: the amount only changes hands between the two accounts. */
  lemma OperationAddsCommission(s: Ledger, req: OperationRequest, now: Timestamp)
    requires CreateOperation(s, req, now).Success?
    ensures Total(CreateOperation(s, req, now).value.ledger.accounts)
            == Total(s.accounts) + (if req.commission.Amount? then req.commission.cents else 0)
  {
    var o := CreateOperation(s, req, now).value;
    var A := req.amount.cents;
    var C := if req.commission.Amount? then req.commission.cents else 0;
    if ParseType(req.typeCode) == Some(Withdrawal) {
      TotalTwoDelta(s.accounts, o.ledger.accounts, o.bank, A, o.cash, C - A);
    } else {
      TotalTwoDelta(s.accounts, o.ledger.accounts, o.bank, -A, o.cash, A + C);
    }
  }

  /** The funds checks keep every balance non-negative. */
  lemma OperationKeepsBalancesNonNegative(s: Ledger, req: OperationRequest, now: Timestamp)
    requires NonNegativeBalances(s.accounts)
    requires CreateOperation(s, req, now).Success?
    ensures NonNegativeBalances(CreateOperation(s, req, now).value.ledger.accounts)
  {
  }

  // ---------------------------------------------------------------------
  // Rebalancing
  // ---------------------------------------------------------------------

  /** The body of an internal transfer request. */
  datatype TransferRequest = TransferRequest(
    userId: UserId,
    branchId: Option<BranchId>,
    source: Option<AccountId>,
    destination: Option<AccountId>,
    amount: Option<Cents>)

  /** The transfer request itself is acceptable: both accounts and a
      positive amount are given, and the accounts differ. */
  predicate TransferAccepted(req: TransferRequest)
  {
    && req.source.Some? && req.destination.Some? && req.amount.Some? && req.amount.value > 0
    && req.source != req.destination
  }

  /** Both accounts and the user of an accepted transfer exist. */
  predicate TransferPartiesKnown(s: Ledger, req: TransferRequest)
    requires TransferAccepted(req)
  {
    req.source.value < |s.accounts| && req.destination.value < |s.accounts| && req.userId in s.users
  }

  /** Every check a transfer passes before it is logged: accepted, known
      parties, and a source that can cover the amount. */
  predicate TransferFunded(s: Ledger, req: TransferRequest)
  {
    TransferAccepted(req) && TransferPartiesKnown(s, req) && s.accounts[req.source.value].balance >= req.amount.value
  }

  /** Moves money from one account of the ledger to another. A zero amount
      counts as missing; neither account's kind or status is looked at. */
  function Rebalance(s: Ledger, req: TransferRequest, now: Timestamp): (r: Result<Ledger>)
    ensures req.source.None? || req.destination.None? || req.amount.None? || req.amount == Some(0) ==>
      r == Failure(MissingFields)
    ensures req.source.Some? && req.destination.Some? && req.amount.Some? && req.amount.value < 0 ==>
      r == Failure(InvalidAmount)
    ensures (req.source.Some? && req.destination.Some? && req.amount.Some? && req.amount.value > 0
             && req.source == req.destination) ==>
      r == Failure(SameAccount)
    ensures TransferAccepted(req) && !TransferPartiesKnown(s, req) ==> r == Failure(InvalidData)
    ensures (TransferAccepted(req) && TransferPartiesKnown(s, req)
             && s.accounts[req.source.value].balance < req.amount.value) ==>
      r == Failure(InsufficientFunds)
    ensures TransferFunded(s, req) && FindBranch(s, req.branchId).None? ==> r == Failure(MissingBranch)
    ensures TransferFunded(s, req) && FindBranch(s, req.branchId).Some? ==> r.Success?
    ensures r.Success? ==>
      && TransferFunded(s, req) && FindBranch(s, req.branchId).Some?
      && TwoAccountDelta(s.accounts, r.value.accounts, req.source.value, -req.amount.value, req.destination.value, req.amount.value)
      && Logged(s, r.value, NewTransaction(InternalTransfer, req.amount.value, req.userId, FindBranch(s, req.branchId).value,
                                           req.source, req.destination, now))
  {
    if req.source.None? || req.destination.None? || req.amount.None? || req.amount.value == 0 then Failure(MissingFields)
    else if req.amount.value <= 0 then Failure(InvalidAmount)
    else if req.source.value == req.destination.value then Failure(SameAccount)
    else
      var src := req.source.value;
      var dst := req.destination.value;
      var amount := req.amount.value;
      if src >= |s.accounts| || dst >= |s.accounts| || req.userId !in s.users then Failure(InvalidData)
      else if s.accounts[src].balance < amount then Failure(InsufficientFunds)
      else
        match FindBranch(s, req.branchId)
        case None => Failure(MissingBranch)
        case Some(branch) =>
          var accounts := s.accounts[src := s.accounts[src].(balance := s.accounts[src].balance - amount)]
                                    [dst := s.accounts[dst].(balance := s.accounts[dst].balance + amount)];
          Success(s.(accounts := accounts,
                     transactions := s.transactions + [NewTransaction(InternalTransfer, amount, req.userId,
                                                                      branch, req.source, req.destination, now)]))
  }

  /** Rebalancing moves money without creating or destroying any: the two
      balances keep their sum, and so does the whole ledger. */
  lemma RebalanceConserves(s: Ledger, req: TransferRequest, now: Timestamp)
    requires Rebalance(s, req, now).Success?
    ensures var after := Rebalance(s, req, now).value.accounts;
      after[req.source.value].balance + after[req.destination.value].balance
      == s.accounts[req.source.value].balance + s.accounts[req.destination.value].balance
    ensures Total(Rebalance(s, req, now).value.accounts) == Total(s.accounts)
  {
    var after := Rebalance(s, req, now).value.accounts;
    TotalTwoDelta(s.accounts, after, req.source.value, -req.amount.value, req.destination.value, req.amount.value);
  }

  // ---------------------------------------------------------------------
  // Capital injection
  // ---------------------------------------------------------------------

  /** The body of a capital injection request. */
  datatype InjectionRequest = InjectionRequest(
    userId: UserId,
    branchId: Option<BranchId>,
    destination: AccountId,
    amount: Option<Cents>)

  /** Money entering from outside the ledger: there is no funds check. */
  function InjectCapital(s: Ledger, req: InjectionRequest, now: Timestamp): (r: Result<Ledger>)
    ensures req.amount.None? || req.amount.value <= 0 ==> r == Failure(InvalidAmount)
    ensures req.amount.Some? && req.amount.value > 0 && (req.destination >= |s.accounts| || req.userId !in s.users) ==>
      r == Failure(InvalidData)
    ensures (req.amount.Some? && req.amount.value > 0 && req.destination < |s.accounts| && req.userId in s.users
             && FindBranch(s, req.branchId).None?) ==>
      r == Failure(MissingBranch)
    ensures (req.amount.Some? && req.amount.value > 0 && req.destination < |s.accounts| && req.userId in s.users
             && FindBranch(s, req.branchId).Some?) ==>
      && r.Success?
      && OneAccountDelta(s.accounts, r.value.accounts, req.destination, req.amount.value)
      && Logged(s, r.value, NewTransaction(CapitalInjection, req.amount.value, req.userId, FindBranch(s, req.branchId).value,
                                           Some(req.destination), None, now))
  {
    if req.amount.None? || req.amount.value <= 0 then Failure(InvalidAmount)
    else if req.destination >= |s.accounts| || req.userId !in s.users then Failure(InvalidData)
    else
      match FindBranch(s, req.branchId)
      case None => Failure(MissingBranch)
      case Some(branch) =>
        var dst := s.accounts[req.destination];
        Success(s.(accounts := s.accounts[req.destination := dst.(balance := dst.balance + req.amount.value)],
                   transactions := s.transactions + [NewTransaction(CapitalInjection, req.amount.value, req.userId,
                                                                    branch, Some(req.destination), None, now)]))
  }

  /** An injection grows the ledger by exactly the injected amount. */
  lemma InjectionGrowsTotal(s: Ledger, req: InjectionRequest, now: Timestamp)
    requires InjectCapital(s, req, now).Success?
    ensures Total(InjectCapital(s, req, now).value.accounts) == Total(s.accounts) + req.amount.value
  {
    TotalOneDelta(s.accounts, InjectCapital(s, req, now).value.accounts, req.destination, req.amount.value);
  }

  // ---------------------------------------------------------------------
  // Expenses
  // ---------------------------------------------------------------------

  /** The body of an expense request; an empty type string means EXPENSE. */
  datatype ExpenseRequest = ExpenseRequest(
    userId: UserId,
    branchId: Option<BranchId>,
    source: AccountId,
    amount: RawNumber,
    typeCode: string)

  /** The type an expense is recorded under: EXPENSE when the request names
      none, otherwise the type whose stored code the request gives; a string
      that is no type's code records nothing. */
  function ExpenseKind(code: string): (k: Option<TransactionType>)
    ensures code == "" ==> k == Some(Expense)
    ensures k.Some? && code != "" ==> TypeCode(k.value) == code
    ensures forall t :: TypeCode(t) == code ==> k == Some(t)
    ensures k.None? ==> forall t :: TypeCode(t) != code
  {
    if code == "" then Some(Expense) else ParseType(code)
  }

  /** Expense registration exactly as the controller does it: the sign of
      the amount is never checked, so a negative amount passes the funds
      check and raises the balance. */
  function RegisterExpenseAsWritten(s: Ledger, req: ExpenseRequest, now: Timestamp): (r: Result<Ledger>)
    ensures req.source >= |s.accounts| || req.userId !in s.users ==> r == Failure(InvalidData)
    ensures (req.source < |s.accounts| && req.userId in s.users && req.amount.Amount?
             && s.accounts[req.source].balance < req.amount.cents) ==>
      r == Failure(InsufficientFunds)
    ensures (req.source < |s.accounts| && req.userId in s.users && req.amount.Amount?
             && s.accounts[req.source].balance >= req.amount.cents
             && ExpenseKind(req.typeCode).Some? && FindBranch(s, req.branchId).Some?) ==>
      r.Success?
    ensures r.Success? ==>
      && req.source < |s.accounts| && req.userId in s.users && req.amount.Amount?
      && s.accounts[req.source].balance >= req.amount.cents
      && ExpenseKind(req.typeCode).Some? && FindBranch(s, req.branchId).Some?
      && OneAccountDelta(s.accounts, r.value.accounts, req.source, -req.amount.cents)
      && Logged(s, r.value, NewTransaction(ExpenseKind(req.typeCode).value, req.amount.cents, req.userId,
                                           FindBranch(s, req.branchId).value, Some(req.source), None, now))
  {
    if req.source >= |s.accounts| || req.userId !in s.users then Failure(InvalidData)
    else if !req.amount.Amount? then Failure(InvalidAmount)
    else if s.accounts[req.source].balance < req.amount.cents then Failure(InsufficientFunds)
    else
      match ExpenseKind(req.typeCode)
      case None => Failure(InvalidOperationType)
      case Some(kind) =>
        match FindBranch(s, req.branchId)
        case None => Failure(MissingBranch)
        case Some(branch) =>
          var src := s.accounts[req.source];
          Success(s.(accounts := s.accounts[req.source := src.(balance := src.balance - req.amount.cents)],
                     transactions := s.transactions + [NewTransaction(kind, req.amount.cents, req.userId,
                                                                      branch, Some(req.source), None, now)]))
  }

  /** The discrepancy: registering an "expense" of a negative amount succeeds
      and credits the account. */
  lemma NegativeExpenseCredits(s: Ledger, req: ExpenseRequest, now: Timestamp)
    requires req.source < |s.accounts| && req.userId in s.users && req.typeCode == ""
    requires FindBranch(s, req.branchId).Some?
    requires req.amount.Amount? && req.amount.cents < 0 && s.accounts[req.source].balance >= 0
    ensures RegisterExpenseAsWritten(s, req, now).Success?
    ensures RegisterExpenseAsWritten(s, req, now).value.accounts[req.source].balance > s.accounts[req.source].balance
  {
  }

  /** Expense registration with the positive-amount check the other
      mutating operations make: an expense only ever takes money out. */
  function RegisterExpense(s: Ledger, req: ExpenseRequest, now: Timestamp): (r: Result<Ledger>)
    ensures !PositiveAmount(req.amount) ==> r == Failure(InvalidAmount)
    ensures PositiveAmount(req.amount) && (req.source >= |s.accounts| || req.userId !in s.users) ==> r == Failure(InvalidData)
    ensures (PositiveAmount(req.amount) && req.source < |s.accounts| && req.userId in s.users
             && s.accounts[req.source].balance < req.amount.cents) ==>
      r == Failure(InsufficientFunds)
    ensures (PositiveAmount(req.amount) && req.source < |s.accounts| && req.userId in s.users
             && s.accounts[req.source].balance >= req.amount.cents
             && ExpenseKind(req.typeCode).Some? && FindBranch(s, req.branchId).Some?) ==>
      r.Success?
    ensures r.Success? ==>
      && PositiveAmount(req.amount)
      && req.source < |s.accounts| && req.userId in s.users
      && s.accounts[req.source].balance >= req.amount.cents
      && ExpenseKind(req.typeCode).Some? && FindBranch(s, req.branchId).Some?
      && OneAccountDelta(s.accounts, r.value.accounts, req.source, -req.amount.cents)
      && 0 <= r.value.accounts[req.source].balance < s.accounts[req.source].balance
      && Logged(s, r.value, NewTransaction(ExpenseKind(req.typeCode).value, req.amount.cents, req.userId,
                                           FindBranch(s, req.branchId).value, Some(req.source), None, now))
  {
    if !PositiveAmount(req.amount) then Failure(InvalidAmount)
    else RegisterExpenseAsWritten(s, req, now)
  }

  /** An expense shrinks the ledger by exactly its amount. */
  lemma ExpenseShrinksTotal(s: Ledger, req: ExpenseRequest, now: Timestamp)
    requires RegisterExpense(s, req, now).Success?
    ensures Total(RegisterExpense(s, req, now).value.accounts) == Total(s.accounts) - req.amount.cents
  {
    TotalOneDelta(s.accounts, RegisterExpense(s, req, now).value.accounts, req.source, -req.amount.cents);
  }
}
